=== FILE: README.md ===
# GitHub webhook receiver: a Dafny model

This project models the core of a small Flask service. GitHub sends it
webhook deliveries. The service does three things:

- It normalises push and pull-request payloads into one event record:
  request id, author, action, source branch, target branch and a UTC
  timestamp.
- It stores each record once, keyed by its request id.
- It serves the stored records, newest first, to a UI that polls every
  fifteen seconds.

The model is written in pure functions over immutable data:

- **Payloads** (`Json`) are decoded JSON values with Python's truthiness.
  `dict.get` and `str()` are modelled; calling `.get` on a non-dict raises
  AttributeError.
- **Times** (`DateTime`) are naive date-times with one-second resolution in
  years 1..9999. They are measured by their second count since 0001-01-01.
  Only the subset of ISO 8601 that the code reads and writes is modelled.
- **The record** (`EventModel`) covers the `ActionType` enumeration,
  `validate`, `to_dict`, `from_db_document` and `to_api_response`.
- **The parsers** (`EventParser`) cover `parse_push_event`,
  `parse_pull_request_event` and `_parse_timestamp`.
  - Every exception the Python code can raise inside a `try` block is an
    explicit failure value. Each parser turns any failure into None.
  - The clock is a parameter, `now`.
- **The store** (`EventService`) is the MongoDB collection, modelled as a
  sequence of records with distinct request ids.
  - `save_event` appends a valid record whose id is new.
  - `get_recent_events` and `get_all_events` are
    `find(query).sort("timestamp", -1).limit(n)` over that sequence. The
    sort is a generic insertion sort (`Sorting`).
  - `get_events_count` is `count_documents({})`: the length of the
    sequence.
- **The two routes** (`Webhook`, `EventsRoute`) are `POST /webhook`,
  `GET /events` and `GET /events/stats`. Each is modelled as a decision
  tree from request to status code, reply and resulting store.
- **An end-to-end scenario** (`Scenario`): a push delivered twice and then
  listed.

The model follows these behaviours of the code:

- **Branch name.** The push branch is `ref.replace("refs/heads/", "")`. This
  removes every occurrence of the prefix, not only a leading one.
- **Timestamps can raise.** `_parse_timestamp` can raise on two inputs:
  - a truthy non-string value (AttributeError at `endswith`);
  - an offset that moves the time outside years 1..9999 (OverflowError).

  Neither exception is a ValueError, so the parser's outer `except` catches
  it and the payload gives None.
- **Limit clamping is in the route.** The limit is forced into 1..100 by
  `get_events`, not by the service functions. Those pass the limit to the
  driver, where 0 means "no limit".
- **Non-integer limit.** A `limit` that `int()` rejects raises inside the
  route's `try`, so the answer is 500, not a clamped default.
- **`since` offset.** The offset of a `since` parameter is dropped without
  converting the wall-clock time to UTC.
- **Duplicate reply.** The reply to a duplicate carries the request id but
  not the action.

## Model

| member | source | states |
|---|---|---|
| `EventModel.ActionTypeValues` | backend/app/models/event.py:28-37 | the enumeration has three members with distinct values; looking a value up is the inverse of taking a member's value, and succeeds exactly on the three values |
| `EventModel.Validate` | backend/app/models/event.py:125-158 | validation succeeds (returning True) exactly when request id, author and both branches have non-whitespace content and the action is one of the enumeration's values |
| `EventModel.ValidateReportsFirstFailure` | backend/app/models/event.py:135-158 | the ValueError raised is the first failing check in field order, and there is none exactly when no check fails |
| `EventModel.ToDict` | backend/app/models/event.py:67-77 | the stored document has exactly the six field names of the record |
| `EventModel.FromDbDocument` | backend/app/models/event.py:98-123 | an absent or empty document gives None; a KeyError names one of the six fields that the document lacks |
| `EventModel.FromDbDocumentOfStored` | backend/app/models/event.py:98-123 | a stored document, whatever extra fields such as `_id` it carries, reads back as the record it was written from |
| `EventModel.FromDbDocumentOfToDict` | backend/app/models/event.py:67-123 | `from_db_document(to_dict(e))` is `e` |
| `EventModel.ToApiResponse` | backend/app/models/event.py:79-96 | the text fields are served unchanged; the timestamp is 20 characters, ends in `Z`, and parses back as the stored time at offset zero |
| `EventModel.ToApiResponseInjective` | backend/app/models/event.py:79-96 | two records with the same API form are the same record, so the API form loses nothing |
| `EventParser.ParseTimestamp` | backend/app/services/event_parser.py:200-241 | a falsy value or an unparseable string gives the clock; a naive time is taken as UTC; an offset is subtracted to reach UTC, and overflow past the representable years is an OverflowError; a truthy non-string raises AttributeError |
| `EventParser.TimestampFallbackIndependent` | backend/app/services/event_parser.py:218-241 | whether a timestamp value is accepted, and any exception it raises, do not depend on the clock |
| `EventParser.ApiTimestampExample` | backend/app/models/event.py:95 | 15:30:00 on 26 January 2024 is served as `2024-01-26T15:30:00Z` |
| `EventParser.ParseTimestampExample` | backend/app/services/event_parser.py:211-237 | GitHub's `2024-01-26T15:30:00Z` is 15:30:00 UTC on 26 January 2024, and is served back as the same text |
| `EventParser.ValidateRaw` | backend/app/services/event_parser.py:79-90 | validating the constructed record succeeds exactly when every text field holds a string with content and the action is valid, and the result then passes `validate` |
| `EventParser.PushFieldsOf` | backend/app/services/event_parser.py:51-75 | the push payload is read without raising and names a commit exactly when it is a dict with a readable `ref`, a dict `head_commit` and `pusher`, and a truthy commit hash |
| `EventParser.ParsePushEvent` | backend/app/services/event_parser.py:23-94 | a push record is a validated PUSH whose source and target branches agree |
| `EventParser.PushEventSpec` | backend/app/services/event_parser.py:23-94 | a push payload is accepted exactly when it has the readable shape, text commit hash and pusher name, a parseable timestamp and a non-blank branch; the record is then commit hash, pusher name, PUSH, the branch twice and the head commit's time |
| `EventParser.PushBranchFromRef` | backend/app/services/event_parser.py:51-52 | the branch is `ref` with every `refs/heads/` removed, `unknown` for a falsy `ref`, and a truthy non-string `ref` gives no record |
| `EventParser.PushBranchOfHeadsRef` | backend/app/services/event_parser.py:50-52 | `refs/heads/<name>` gives the branch `<name>` when the name does not itself contain the prefix |
| `EventParser.PushRequestId` | backend/app/services/event_parser.py:57-67 | the request id is the head commit's id, falling back to `after`; with neither the payload gives None |
| `EventParser.PushAuthorDefault` | backend/app/services/event_parser.py:69-71 | a push without a pusher name is attributed to `unknown` |
| `EventParser.PushWithNullHeadCommit` | backend/app/services/event_parser.py:55-59 | a null `head_commit` makes the id lookup raise, so the payload gives None |
| `EventParser.PullRequestAction` | backend/app/services/event_parser.py:136-149 | MERGE exactly for a close with a truthy `merged`; PULL_REQUEST exactly for opened, reopened and synchronize; never PUSH |
| `EventParser.PullRequestHeaderOf` | backend/app/services/event_parser.py:127-158 | the first half succeeds exactly when the payload is a dict whose `pull_request` is a non-empty dict and whose action is tracked; it yields that object, the action and the number |
| `EventParser.PullRequestBodyOf` | backend/app/services/event_parser.py:160-178 | the second half succeeds exactly when `user`, `head` and `base` are dicts, and reads login, both refs (default `unknown`) and the time field for the action |
| `EventParser.ParsePullRequestEvent` | backend/app/services/event_parser.py:97-197 | a pull-request record is a validated PULL_REQUEST or MERGE |
| `EventParser.PullRequestEventSpec` | backend/app/services/event_parser.py:97-197 | a pull-request payload is accepted exactly when the nested objects are readable, the action is tracked, login and refs are text with content and the chosen time parses; the record is then built from exactly those fields |
| `EventParser.PullRequestIdIsText` | backend/app/services/event_parser.py:151-158 | a pull-request request id always has content, so it never fails validation |
| `EventParser.PullRequestMissing` | backend/app/services/event_parser.py:129-134 | a missing, null or empty `pull_request` gives None |
| `EventParser.PullRequestMerged` | backend/app/services/event_parser.py:142-158 | a merged close gives MERGE with request id `MERGE-` and the number |
| `EventParser.PullRequestOpened` | backend/app/services/event_parser.py:144-154 | opened, reopened and synchronize give PULL_REQUEST with request id `PR-` and the number |
| `EventParser.PullRequestUntracked` | backend/app/services/event_parser.py:141-149 | any other action, including a close that was not merged, gives None |
| `EventParser.PullRequestFieldDefaults` | backend/app/services/event_parser.py:160-171 | author and branches are `unknown` when their keys are absent |
| `EventParser.PullRequestNumberFallback` | backend/app/services/event_parser.py:153 | the number falls back to the internal id only when `number` is absent |
| `EventParser.PullRequestTimestampSource` | backend/app/services/event_parser.py:173-178 | a merge takes `merged_at`; otherwise `created_at`, and `updated_at` only when `created_at` is absent |
| `EventService.SaveEvent` | backend/app/services/event_service.py:29-77 | a record is saved exactly when it is valid and its request id is not stored; a saved record is appended, and a refused one leaves the store unchanged |
| `EventService.SaveEventCount` | backend/app/services/event_service.py:29-77 | the count grows by one on a save and not at all on a refusal |
| `EventService.SaveEventTwice` | backend/app/services/event_service.py:43-68 | saving the same valid new record twice stores it once and reports the second as a duplicate that changes nothing |
| `EventService.SaveEventKeepsRecords` | backend/app/services/event_service.py:29-77 | request ids stay unique; nothing stored is lost; the only record that can appear is the one saved |
| `EventService.MatchesIsAfter` | backend/app/services/event_service.py:106-112 | the database's `$gt` on timestamps agrees with Python's ordering of date-times |
| `EventService.Filter` | backend/app/services/event_service.py:104-112 | the query keeps exactly the records that match the time bound |
| `EventService.SortNewestFirst` | backend/app/services/event_service.py:115 | the sort is a permutation with no record older than one after it |
| `Sorting.SortDescending` | backend/app/services/event_service.py:115 | sorting by a key, largest first, is a permutation in descending key order |
| `EventService.Limit` | backend/app/services/event_service.py:115 | the limit keeps a prefix, of length `min(len, abs(n))`, or all of it for 0 |
| `EventService.QuerySpec` | backend/app/services/event_service.py:101-124 | a query returns matching stored records, newest first and as many as the limit allows; a left-out match is no newer than any returned record, and none is left out when the limit allows |
| `EventService.QueryKeepsNewest` | backend/app/services/event_service.py:115 | a matching record cut off by the limit is no newer than any record returned |
| `EventService.QueryComplete` | backend/app/services/event_service.py:115 | when the limit allows, every matching record is returned |
| `EventService.RecentBound` | backend/app/services/event_service.py:106-112 | the bound is `since`, or fifteen seconds before the clock, which overflows in the first fifteen seconds of year 1 |
| `EventService.RecentEventsWindow` | backend/app/services/event_service.py:80-124 | recent events are stored records strictly after `since`, or strictly within fifteen seconds of the clock, newest first and within a positive limit |
| `EventService.RecentWindowExample` | backend/app/services/event_service.py:106-115 | a record ten seconds old is served by the default poll, and one twenty seconds old is not |
| `EventService.AllEventsComplete` | backend/app/services/event_service.py:127-152 | when the limit allows, every stored record is listed, newest first |
| `Webhook.HandleWebhook` | backend/app/routes/webhook.py:30-125 | the code is 200, 400 or 500; 200 exactly for success, duplicate or ignored, otherwise the status is error; a request id exactly for a duplicate or a stored event; the store changes only on success, by appending one validated record |
| `Webhook.EmptyPayloadRefused` | backend/app/routes/webhook.py:61-68 | a falsy payload is a 400 before the event kind is examined, even for a ping |
| `Webhook.PingAnswered` | backend/app/routes/webhook.py:70-75 | a ping with a payload is answered 200 with the fixed message and stores nothing |
| `Webhook.UnsupportedIgnored` | backend/app/routes/webhook.py:86-92 | kinds other than push, pull_request and ping are acknowledged as ignored and store nothing |
| `Webhook.SupportedKind` | backend/app/routes/webhook.py:77-116 | for push and pull_request: no record gives 400; a new record is stored with status success; a known request id is a duplicate with the store unchanged |
| `Webhook.UnreadableBody` | backend/app/routes/webhook.py:62 | a body `get_json` refuses is a 500 with the fixed message |
| `Webhook.RedeliveryIsDuplicate` | backend/app/routes/webhook.py:101-116 | delivering a stored delivery again, at any later time, is a duplicate with the same request id and stores nothing |
| `Webhook.SameRequestIdAtAnyTime` | backend/app/services/event_parser.py:57-158 | the request id a payload gives does not depend on the clock |
| `EventsRoute.Clamp` | backend/app/routes/events.py:62-66 | the limit in effect is in 1..100, the given value when it is in range, else the nearer end |
| `EventsRoute.SinceDropsOffset` | backend/app/routes/events.py:73-77 | a `since` with any offset that parses, such as `+00:60`, is accepted, and its wall-clock time is used with the offset dropped |
| `EventsRoute.SinceArg` | backend/app/routes/events.py:68-82 | an absent or empty `since` means none; otherwise it must parse after the `Z` rewrite, and its wall-clock time is kept |
| `EventsRoute.FetchRecords` | backend/app/routes/events.py:58-88 | an unreadable limit fails first; served records are stored ones, newest first, within the clamped limit |
| `EventsRoute.GetEvents` | backend/app/routes/events.py:27-110 | whenever the records are fetched the reply is 200 and lists exactly their API forms, in query order; the code is 400 exactly for an unparseable `since` and 500 for every other failure; a listing's count is its length, its total is the store size, and `last_timestamp` is the first (newest) event's timestamp, None exactly when nothing is listed |
| `EventsRoute.GetStats` | backend/app/routes/events.py:113-136 | the statistics report the number of stored records |
| `EventsRoute.NonIntegerLimitIsServerError` | backend/app/routes/events.py:60 | a limit `int()` rejects is a 500, whatever `since` holds |
| `EventsRoute.InvalidSinceIsClientError` | backend/app/routes/events.py:70-82 | an unparseable `since` is a 400, with or without `all=true` |
| `EventsRoute.LimitInEffect` | backend/app/routes/events.py:60-66 | the limit is 50 without the parameter, and no listing is longer than the clamped limit |
| `EventsRoute.ZeroLimitIsOne` | backend/app/routes/events.py:60-64 | `limit=0` behaves as 1 |
| `EventsRoute.LargeLimitIsHundred` | backend/app/routes/events.py:60-66 | `limit=500` behaves as 100 |
| `EventsRoute.FetchAllIgnoresCase` | backend/app/routes/events.py:59 | `all` selects the unfiltered listing exactly when it spells `true` in any mix of cases (`TRUE`, `True`), and nothing else does |
| `EventsRoute.Dispatch` | backend/app/routes/events.py:84-88 | `all=true` lists without a time filter; otherwise the recent query with `since` runs |
| `EventsRoute.SinceOfServedTimestamp` | backend/app/routes/events.py:91-94 | a served `last_timestamp`, passed back as `since`, reads as the very time it was rendered from |
| `EventsRoute.PollingAdvances` | backend/app/routes/events.py:48-103 | `last_timestamp` is the newest served time, and the next poll from it serves only strictly newer records |
| `DateTime.BeforeIsEarlier` | backend/app/services/event_service.py:108 | date-time order is the order of second counts |
| `DateTime.ToSecondsInjective` | backend/app/models/event.py:65 | distinct date-times have distinct second counts |
| `DateTime.AddSeconds` | backend/app/services/event_service.py:111 | moving a date-time by a number of seconds moves its second count by that much, and fails exactly when the result leaves years 1..9999 |
| `DateTime.ParseLocalOfFormat` | backend/app/models/event.py:95 | parsing the ISO text of a date-time gives it back |
| `DateTime.FormatOfParseLocal` | backend/app/routes/events.py:73-75 | a wall-clock text that parses is the ISO text of what it parses to |
| `DateTime.ParseOffsetCarries` | backend/app/services/event_parser.py:228-233 | `fromisoformat` takes offset minutes above 59 as a carry into the hours: `+05:75` is 375 minutes and `+00:60` is 60 |
| `DateTime.ParseOffsetDayLimit` | backend/app/services/event_parser.py:228-233 | an offset one minute short of a day, `-23:59`, is accepted; one of a whole day, `+23:60`, is refused |
| `DateTime.ParseIsoOfZulu` | backend/app/routes/events.py:73-77 | a served `...Z` timestamp parses, after the rewrite, as the same time at offset zero |
| `Text.EmptyAfterStripIffBlank` | backend/app/models/event.py:136 | `not s or not s.strip()` holds exactly when `s` has no non-whitespace character |
| `Text.RemoveAllLeading` | backend/app/services/event_parser.py:52 | removing every occurrence of a prefix from a text that starts with it is removing it from the rest |
| `Text.RemoveAllAbsent` | backend/app/services/event_parser.py:52 | removing a pattern that does not occur changes nothing |
| `Text.PyIntOfDecimal` | backend/app/routes/events.py:60 | `int()` reads back the decimal text of any integer of at most 4300 digits; the text of a longer one makes it raise ValueError |
| `EventsRoute.OverlongLimitIsServerError` | backend/app/routes/events.py:105-110 | a `limit` that is the decimal text of an integer of more than 4300 digits makes `int()` raise, and the route answers 500 |
| `Json.FieldLookup` | backend/app/services/event_parser.py:51-71 | `.get` gives the default when the key is absent; when the key is present it gives the value of the first member with that key |

## Left out

- **MongoDB I/O.** The connection, the unique-index set-up and the
  collection are not modelled. The store is a sequence, and the unique index
  is its invariant. `backend/app/utils/database.py` is not part of this
  model.
- **Concurrency.** Two deliveries that race on the same id are not
  modelled.
- **Database faults in `save_event`.** A fault raised there returns False,
  and the webhook then reports "duplicate". The model has no faults, so
  False always means invalid or duplicate.
- **Faults in the reading calls.** Faults raised by `get_recent_events`,
  `get_all_events` or `get_events_count` are not modelled. They would give
  the routes' 500 replies. The statistics endpoint therefore always
  answers 200 here.
- **`print` calls.** The logging in every function is left out.
- **The clock.** `datetime.now(timezone.utc)` and `datetime.utcnow()` are a
  parameter `now`.
  - For an empty timestamp, the Python fallback is an aware time. For an
    unparseable one, it is a naive time.
  - The model uses one naive `now` for both.
  - The model's `now` is a whole second. Python's clock has microseconds,
    so a record stamped with it is served as `…SS.ffffffZ`, 27 characters.
    The 20-character form that `EventModel.ToApiResponse` states holds only
    for the model's whole-second times.
- **Python routes outside the core.** The `GET /webhook` information
  route, the health route, the application factory, the configuration and
  `run.py` are not part of this model.
- **Duplicate keys.** A decoded dict never holds the same key twice, but
  the `Json` type does not rule it out. Lemmas over payloads therefore
  also cover such values, which Python cannot produce. Lookup takes the
  first member with a key, and `str()` of such a value prints every member.
- **Floats.** Floating-point JSON numbers are left out, so no `str()` of a
  float appears in a request id.
- **`repr` above U+00FF.** When a number is a list or dict, `str()` of it
  appears in the request id. There, non-printable characters above U+00FF
  are written as themselves, not escaped.
- **Mistyped documents.** `from_db_document` builds a record from whatever
  the document holds. The model reports a field of the wrong type as
  `Mistyped` instead of building an ill-typed record. Documents written by
  `save_event` are never mistyped.
- **The 400 message for a bad `since`.** The message is
  `Invalid timestamp format: ` followed by the text of Python's ValueError.
  That text is not modelled.
- DateTime.ParseIso: `datetime.fromisoformat` is modelled only for
  `YYYY-MM-DDTHH:MM:SS` with an optional `+HH:MM`/`-HH:MM` offset.
  - As in Python, neither offset field is range-checked on its own: the
    minutes may exceed 59 and carry into the hours. Only a total of a day
    or more is refused.
  - Every other form Python accepts is not modelled. Examples: date-only
    text, any other single separator character in place of `T`, times
    without seconds (`…T15:30`), fractional seconds, offsets with seconds,
    and the compact forms.
  - The model treats those inputs as unparseable. So `ParseTimestamp`
    falls back to the clock for them, and `SinceArg` rejects them.
  - Stored and served times therefore have one-second resolution.
- Text.ParsePyInt: `int()` is modelled for ASCII digits, with surrounding
  whitespace, a sign and single underscores between digits. Non-ASCII
  Unicode digits are not accepted.
  - More than 4300 digits make it fail. That limit is the default of
    `sys.get_int_max_str_digits()` in CPython 3.11 and later, and in the
    security releases of earlier versions. Older Pythons have no limit;
    the model does not cover them.
- **The order of records with the same timestamp.** MongoDB leaves the
  order of such records unspecified in a sort. The model picks one order:
  the order in which they were saved. Only the tie order is a modelling
  choice; the newest-first order is not.
- **The request body.** `request.get_json()` is modelled as an already
  decoded value, or a body it refuses. JSON decoding itself is not
  modelled.

=== FILE: datetime.dfy ===
/** Naive date-times with one-second resolution, as Python's `datetime` holds
    them once the offset is dropped, and the subset of ISO 8601 (the date-time
    form of section 5.6 of RFC 3339) that the modelled code reads and writes. */
module DateTime {
  import opened Wrappers
  import opened Text

  datatype Civil = Civil(year: int, month: int, day: int, hour: int, minute: int, second: int)

  const MinYear: int := 1
  const MaxYear: int := 9999
  const SecondsPerDay: int := 86400

  predicate IsLeapYear(y: int) {
    y % 4 == 0 && (y % 100 != 0 || y % 400 == 0)
  }

  function YearLength(y: int): int {
    if IsLeapYear(y) then 366 else 365
  }

  function DaysInMonth(y: int, m: int): int
    requires 1 <= m <= 12
  {
    if m == 2 then (if IsLeapYear(y) then 29 else 28)
    else if m == 4 || m == 6 || m == 9 || m == 11 then 30
    else 31
  }

  /** The ranges Python's `datetime` constructor enforces. */
  predicate ValidCivil(c: Civil) {
    && MinYear <= c.year <= MaxYear
    && 1 <= c.month <= 12
    && 1 <= c.day <= DaysInMonth(c.year, c.month)
    && 0 <= c.hour < 24
    && 0 <= c.minute < 60
    && 0 <= c.second < 60
  }

  /** A naive date-time: every value of this type is one Python can hold. */
  type DateTime = c: Civil | ValidCivil(c) witness Civil(1, 1, 1, 0, 0, 0)

  // ---------------------------------------------------------------- measure

  /** Days from 0001-01-01 to the first day of year `y`. */
  function DaysBeforeYear(y: int): nat
    requires y >= MinYear
    decreases y
  {
    if y == MinYear then 0 else DaysBeforeYear(y - 1) + YearLength(y - 1)
  }

  const CumulativeDays: seq<int> := [0, 31, 59, 90, 120, 151, 181, 212, 243, 273, 304, 334, 365]

  /** Days from the first of January of `y` to the first day of month `m`
      (month 13 stands for the next first of January). */
  function DaysBeforeMonth(y: int, m: int): int
    requires 1 <= m <= 13
  {
    CumulativeDays[m - 1] + (if m > 2 && IsLeapYear(y) then 1 else 0)
  }

  /** Days since 0001-01-01. */
  function DayNumber(d: DateTime): nat {
    DaysBeforeYear(d.year) + DaysBeforeMonth(d.year, d.month) + d.day - 1
  }

  function SecondOfDay(d: DateTime): int {
    d.hour * 3600 + d.minute * 60 + d.second
  }

  /** Seconds since 0001-01-01T00:00:00: the reference measure of time. */
  function ToSeconds(d: DateTime): int {
    DayNumber(d) * SecondsPerDay + SecondOfDay(d)
  }

  /** The number of representable seconds: every instant lies below it. */
  function SecondsInRange(): int {
    DaysBeforeYear(MaxYear + 1) * SecondsPerDay
  }

  /** `a < b` on naive datetimes: field by field, most significant first. */
  predicate Before(a: DateTime, b: DateTime) {
    if a.year != b.year then a.year < b.year
    else if a.month != b.month then a.month < b.month
    else if a.day != b.day then a.day < b.day
    else if a.hour != b.hour then a.hour < b.hour
    else if a.minute != b.minute then a.minute < b.minute
    else a.second < b.second
  }

  lemma {:induction false} YearsOrdered(y1: int, y2: int)
    requires MinYear <= y1 < y2
    ensures DaysBeforeYear(y1) + YearLength(y1) <= DaysBeforeYear(y2)
    decreases y2 - y1
  {
    if y2 > y1 + 1 {
      YearsOrdered(y1, y2 - 1);
    }
  }

  lemma MonthsOrdered(y: int, m1: int, m2: int)
    requires 1 <= m1 < m2 <= 13 && m1 <= 12
    ensures DaysBeforeMonth(y, m1) + DaysInMonth(y, m1) <= DaysBeforeMonth(y, m2)
  {
  }

  lemma DayOfYearBounds(d: DateTime)
    ensures 0 <= DaysBeforeMonth(d.year, d.month) + d.day - 1 < YearLength(d.year)
  {
    MonthsOrdered(d.year, d.month, 13);
  }

  lemma SecondOfDayBounds(d: DateTime)
    ensures 0 <= SecondOfDay(d) < SecondsPerDay
  {
  }

  /** Every representable date-time lies in [0, SecondsInRange()). */
  lemma ToSecondsInRange(d: DateTime)
    ensures 0 <= ToSeconds(d) < SecondsInRange()
  {
    DayOfYearBounds(d);
    SecondOfDayBounds(d);
    if d.year < MaxYear {
      YearsOrdered(d.year, MaxYear + 1);
    }
    assert DayNumber(d) < DaysBeforeYear(MaxYear + 1);
  }

  /** An earlier calendar day has a smaller day number. */
  lemma DayNumberOrdered(a: DateTime, b: DateTime)
    requires a.year < b.year
          || (a.year == b.year && a.month < b.month)
          || (a.year == b.year && a.month == b.month && a.day < b.day)
    ensures DayNumber(a) < DayNumber(b)
  {
    DayOfYearBounds(a);
    if a.year < b.year {
      YearsOrdered(a.year, b.year);
    } else if a.month < b.month {
      MonthsOrdered(a.year, a.month, b.month);
    }
  }

  /** The field-wise order of naive datetimes is the order of time. */
  lemma {:induction false} BeforeIsEarlier(a: DateTime, b: DateTime)
    ensures Before(a, b) <==> ToSeconds(a) < ToSeconds(b)
  {
    SecondOfDayBounds(a);
    SecondOfDayBounds(b);
    if a.year != b.year || a.month != b.month || a.day != b.day {
      if Before(a, b) {
        DayNumberOrdered(a, b);
      } else {
        DayNumberOrdered(b, a);
      }
    }
  }

  /** Distinct date-times denote distinct instants. */
  lemma ToSecondsInjective(a: DateTime, b: DateTime)
    requires ToSeconds(a) == ToSeconds(b)
    ensures a == b
  {
    BeforeIsEarlier(a, b);
    BeforeIsEarlier(b, a);
  }

  // ---------------------------------------------------------------- arithmetic

  predicate IsFirstDay(d: DateTime) {
    d.year == MinYear && d.month == 1 && d.day == 1
  }

  predicate IsLastDay(d: DateTime) {
    d.year == MaxYear && d.month == 12 && d.day == 31
  }

  /** The same wall-clock time on the following day; None past 9999-12-31. */
  function NextDay(d: DateTime): (r: Option<DateTime>)
    ensures r.None? <==> IsLastDay(d)
    ensures r.Some? ==> DayNumber(r.value) == DayNumber(d) + 1 && SecondOfDay(r.value) == SecondOfDay(d)
  {
    if d.day < DaysInMonth(d.year, d.month) then
      Some(d.(day := d.day + 1))
    else if d.month < 12 then
      MonthsOrdered(d.year, d.month, d.month + 1);
      Some(d.(month := d.month + 1, day := 1))
    else if d.year < MaxYear then
      Some(d.(year := d.year + 1, month := 1, day := 1))
    else None
  }

  /** The same wall-clock time on the preceding day; None before 0001-01-01. */
  function PrevDay(d: DateTime): (r: Option<DateTime>)
    ensures r.None? <==> IsFirstDay(d)
    ensures r.Some? ==> DayNumber(r.value) + 1 == DayNumber(d) && SecondOfDay(r.value) == SecondOfDay(d)
  {
    if d.day > 1 then
      Some(d.(day := d.day - 1))
    else if d.month > 1 then
      MonthsOrdered(d.year, d.month - 1, d.month);
      Some(d.(month := d.month - 1, day := DaysInMonth(d.year, d.month - 1)))
    else if d.year > MinYear then
      Some(d.(year := d.year - 1, month := 12, day := 31))
    else None
  }

  /** `d` with its time of day replaced by second `t` of the day. */
  function AtSecondOfDay(d: DateTime, t: int): (r: DateTime)
    requires 0 <= t < SecondsPerDay
    ensures DayNumber(r) == DayNumber(d) && SecondOfDay(r) == t
  {
    d.(hour := t / 3600, minute := t % 3600 / 60, second := t % 60)
  }

  /** `d + timedelta(seconds=k)` for |k| under a day. None where Python raises
      OverflowError: the result would leave years 1..9999. */
  function AddSeconds(d: DateTime, k: int): (r: Option<DateTime>)
    requires -SecondsPerDay < k < SecondsPerDay
    ensures r.Some? ==> ToSeconds(r.value) == ToSeconds(d) + k
    ensures r.None? <==> (ToSeconds(d) + k < 0 || ToSeconds(d) + k >= SecondsInRange())
  {
    ToSecondsInRange(d);
    var t := SecondOfDay(d) + k;
    if t < 0 then
      if IsFirstDay(d) then None
      else
        var p := PrevDay(d).value;
        Some(AtSecondOfDay(p, t + SecondsPerDay))
    else if t >= SecondsPerDay then
      if IsLastDay(d) then
        assert DayNumber(d) + 1 == DaysBeforeYear(MaxYear + 1);
        None
      else
        var n := NextDay(d).value;
        ToSecondsInRange(n);
        Some(AtSecondOfDay(n, t - SecondsPerDay))
    else Some(AtSecondOfDay(d, t))
  }

  // ---------------------------------------------------------------- ISO 8601

  /** `d.isoformat()` for a datetime without microseconds: `YYYY-MM-DDTHH:MM:SS`. */
  function IsoFormat(d: DateTime): (r: string)
    ensures |r| == 19
  {
    Pad4(d.year) + "-" + Pad2(d.month) + "-" + Pad2(d.day) + "T"
    + Pad2(d.hour) + ":" + Pad2(d.minute) + ":" + Pad2(d.second)
  }

  /** A parsed ISO 8601 date-time: the wall-clock fields and the UTC offset in
      minutes east of Greenwich, if one was written. */
  datatype IsoTime = IsoTime(local: DateTime, offsetMinutes: Option<int>)

  predicate DigitsAt(t: string, i: nat, n: nat) {
    i + n <= |t| && AllDigits(t[i..i + n])
  }

  /** `YYYY-MM-DDTHH:MM:SS` with in-range fields. */
  function ParseLocal(t: string): (r: Option<DateTime>)
    requires |t| == 19
  {
    if && DigitsAt(t, 0, 4) && t[4] == '-' && DigitsAt(t, 5, 2) && t[7] == '-'
       && DigitsAt(t, 8, 2) && t[10] == 'T' && DigitsAt(t, 11, 2) && t[13] == ':'
       && DigitsAt(t, 14, 2) && t[16] == ':' && DigitsAt(t, 17, 2)
    then
      var c := Civil(DigitsValue(t[0..4]), DigitsValue(t[5..7]), DigitsValue(t[8..10]),
                     DigitsValue(t[11..13]), DigitsValue(t[14..16]), DigitsValue(t[17..19]));
      if ValidCivil(c) then Some(c) else None
    else None
  }

  /** `+HH:MM` or `-HH:MM` in signed minutes. Python reads the two fields as
      `timedelta(hours=HH, minutes=MM)` without a range check on either, so
      `+05:75` is six hours and a quarter; only a total of 24 hours or more
      is refused, by `timezone`. */
  function ParseOffset(t: string): (r: Option<int>)
    requires |t| == 6
    ensures r.Some? ==> -24 * 60 < r.value < 24 * 60
  {
    if (t[0] == '+' || t[0] == '-') && DigitsAt(t, 1, 2) && t[3] == ':' && DigitsAt(t, 4, 2) then
      var hh := DigitsValue(t[1..3]);
      var mm := DigitsValue(t[4..6]);
      if hh * 60 + mm < 24 * 60 then
        Some(if t[0] == '-' then -(hh * 60 + mm) else hh * 60 + mm)
      else None
    else None
  }

  /** Minutes above 59 carry into the hours. */
  lemma ParseOffsetCarries()
    ensures ParseOffset("+05:75") == Some(6 * 60 + 15)
    ensures ParseOffset("+00:60") == Some(60)
  {
    OffsetFieldValues("+05:75");
    OffsetFieldValues("+00:60");
  }

  /** The offset stays strictly within a day: a minute short is accepted,
      a whole day is refused. */
  lemma ParseOffsetDayLimit()
    ensures ParseOffset("-23:59") == Some(-(24 * 60 - 1))
    ensures ParseOffset("+23:60") == None
  {
    OffsetFieldValues("-23:59");
    OffsetFieldValues("+23:60");
  }

  /** The two fields of an offset text, digit by digit. */
  lemma OffsetFieldValues(t: string)
    requires |t| == 6 && DigitsAt(t, 1, 2) && DigitsAt(t, 4, 2)
    ensures DigitsValue(t[1..3]) == DigitValue(t[1]) * 10 + DigitValue(t[2])
    ensures DigitsValue(t[4..6]) == DigitValue(t[4]) * 10 + DigitValue(t[5])
  {
    DigitsValueTwo(t[1..3]);
    DigitsValueTwo(t[4..6]);
  }

  /** `datetime.fromisoformat` restricted to `YYYY-MM-DDTHH:MM:SS` with an
      optional `+HH:MM`/`-HH:MM` offset. None where Python raises ValueError. */
  function ParseIso(s: string): Option<IsoTime> {
    if |s| == 19 then
      var local :- ParseLocal(s);
      Some(IsoTime(local, None))
    else if |s| == 25 then
      var local :- ParseLocal(s[..19]);
      var offset :- ParseOffset(s[19..]);
      Some(IsoTime(local, Some(offset)))
    else None
  }

  /** A trailing `Z` is rewritten to `+00:00` before parsing. */
  function ReplaceZulu(s: string): (r: string)
    ensures !EndsWith(s, 'Z') ==> r == s
    ensures EndsWith(s, 'Z') ==> r == s[..|s| - 1] + "+00:00"
  {
    if EndsWith(s, 'Z') then s[..|s| - 1] + "+00:00" else s
  }

  /** Printing and parsing the wall-clock fields are inverse. */
  lemma ParseLocalOfFormat(d: DateTime)
    ensures ParseLocal(IsoFormat(d)) == Some(d)
  {
    var t := IsoFormat(d);
    assert t[0..4] == Pad4(d.year);
    assert t[5..7] == Pad2(d.month);
    assert t[8..10] == Pad2(d.day);
    assert t[11..13] == Pad2(d.hour);
    assert t[14..16] == Pad2(d.minute);
    assert t[17..19] == Pad2(d.second);
  }

  /** A string that parses is the canonical rendering of what it parses to. */
  lemma FormatOfParseLocal(t: string)
    requires |t| == 19 && ParseLocal(t).Some?
    ensures IsoFormat(ParseLocal(t).value) == t
  {
    var d := ParseLocal(t).value;
    Pad4OfValue(t[0..4]);
    Pad2OfValue(t[5..7]);
    Pad2OfValue(t[8..10]);
    Pad2OfValue(t[11..13]);
    Pad2OfValue(t[14..16]);
    Pad2OfValue(t[17..19]);
    assert t == t[0..4] + [t[4]] + t[5..7] + [t[7]] + t[8..10] + [t[10]]
              + t[11..13] + [t[13]] + t[14..16] + [t[16]] + t[17..19];
  }

  /** The timestamp text served to clients (`isoformat() + "Z"`) reads back, by
      the `Z` rewrite and `fromisoformat`, as the same wall-clock time at offset 0. */
  lemma ParseIsoOfZulu(d: DateTime)
    ensures ParseIso(ReplaceZulu(IsoFormat(d) + "Z")) == Some(IsoTime(d, Some(0)))
  {
    var s := IsoFormat(d) + "Z";
    var u := ReplaceZulu(s);
    assert u == IsoFormat(d) + "+00:00";
    assert u[..19] == IsoFormat(d);
    assert u[19..] == "+00:00";
    ParseLocalOfFormat(d);
    assert u[19..][1..3] == "00" && u[19..][4..6] == "00";
    assert DigitsValue("00") == 0 by {
      assert "00"[..1] == "0";
    }
  }
}

=== FILE: event.dfy ===
/** The normalised event record: its action enumeration, its validation, and
    its two serialised forms (the stored document and the API object). */
module EventModel {
  import opened Wrappers
  import opened Text
  import opened DateTime

  /** The three kinds of event; each member's value is its own name. */
  datatype ActionType = PUSH | PULL_REQUEST | MERGE {
    function Value(): string {
      match this
      case PUSH => "PUSH"
      case PULL_REQUEST => "PULL_REQUEST"
      case MERGE => "MERGE"
    }
  }

  /** `[a.value for a in ActionType]`, in declaration order. */
  const ActionValues: seq<string> := [PUSH.Value(), PULL_REQUEST.Value(), MERGE.Value()]

  /** `ActionType(v)`: the member whose value is `v`, None where Python raises. */
  function ActionFromValue(v: string): Option<ActionType> {
    if v == "PUSH" then Some(PUSH)
    else if v == "PULL_REQUEST" then Some(PULL_REQUEST)
    else if v == "MERGE" then Some(MERGE)
    else None
  }

  /** The enumeration has exactly three members, with distinct values, and
      value lookup is the inverse of `Value`. */
  lemma ActionTypeValues()
    ensures |ActionValues| == 3
    ensures ActionValues[0] != ActionValues[1] && ActionValues[1] != ActionValues[2]
         && ActionValues[0] != ActionValues[2]
    ensures forall a: ActionType :: a.Value() in ActionValues && ActionFromValue(a.Value()) == Some(a)
    ensures forall v :: ActionFromValue(v).Some? <==> v in ActionValues
    ensures forall v | ActionFromValue(v).Some? :: ActionFromValue(v).value.Value() == v
  {
  }

  /** An event as the parsers build it and the store keeps it. `action` is
      kept as its string value, as the Python dataclass declares it. */
  datatype Event = Event(
    requestId: string,
    author: string,
    action: string,
    fromBranch: string,
    toBranch: string,
    timestamp: DateTime)

  /** The ValueError that `validate` raises, one per checked field. */
  datatype ValidationError =
    | RequestIdRequired
    | AuthorRequired
    | ActionInvalid
    | FromBranchRequired
    | ToBranchRequired
  {
    function Message(): string {
      match this
      case RequestIdRequired => "request_id is required"
      case AuthorRequired => "author is required"
      case ActionInvalid => "action must be one of: ['PUSH', 'PULL_REQUEST', 'MERGE']"
      case FromBranchRequired => "from_branch is required"
      case ToBranchRequired => "to_branch is required"
    }
  }

  /** The acceptance condition of the record, stated field by field. */
  predicate IsValid(e: Event) {
    && HasContent(e.requestId)
    && HasContent(e.author)
    && e.action in ActionValues
    && HasContent(e.fromBranch)
    && HasContent(e.toBranch)
  }

  /** The failing checks, in the order the fields are checked. */
  function Failures(e: Event): seq<ValidationError> {
    (if HasContent(e.requestId) then [] else [RequestIdRequired])
    + (if HasContent(e.author) then [] else [AuthorRequired])
    + (if e.action in ActionValues then [] else [ActionInvalid])
    + (if HasContent(e.fromBranch) then [] else [FromBranchRequired])
    + (if HasContent(e.toBranch) then [] else [ToBranchRequired])
  }

  /** `not s or not s.strip()`. */
  predicate Missing(s: string) {
    s == [] || Strip(s) == []
  }

  /** `Event.validate`: True, or the ValueError of the first failing check.
      The timestamp check is met by every value of the DateTime type. */
  function Validate(e: Event): (r: Result<bool, ValidationError>)
    ensures r.Success? ==> r.value
    ensures r.Success? <==> IsValid(e)
  {
    EmptyAfterStripIffBlank(e.requestId);
    EmptyAfterStripIffBlank(e.author);
    EmptyAfterStripIffBlank(e.fromBranch);
    EmptyAfterStripIffBlank(e.toBranch);
    if Missing(e.requestId) then Failure(RequestIdRequired)
    else if Missing(e.author) then Failure(AuthorRequired)
    else if e.action !in ActionValues then Failure(ActionInvalid)
    else if Missing(e.fromBranch) then Failure(FromBranchRequired)
    else if Missing(e.toBranch) then Failure(ToBranchRequired)
    else Success(true)
  }

  /** The checks run in a fixed order: the error raised is the first failure. */
  lemma ValidateReportsFirstFailure(e: Event)
    ensures Validate(e).Success? <==> Failures(e) == []
    ensures Validate(e).Failure? ==> Validate(e).error == Failures(e)[0]
  {
    EmptyAfterStripIffBlank(e.requestId);
    EmptyAfterStripIffBlank(e.author);
    EmptyAfterStripIffBlank(e.fromBranch);
    EmptyAfterStripIffBlank(e.toBranch);
    if !HasContent(e.requestId) {
      assert Failures(e)[0] == RequestIdRequired;
    } else if !HasContent(e.author) {
      assert Failures(e)[0] == AuthorRequired;
    } else if e.action !in ActionValues {
      assert Failures(e)[0] == ActionInvalid;
    } else if !HasContent(e.fromBranch) {
      assert Failures(e)[0] == FromBranchRequired;
    } else if !HasContent(e.toBranch) {
      assert Failures(e)[0] == ToBranchRequired;
    } else {
      assert Failures(e) == [];
    }
  }

  // ---------------------------------------------------------------- documents

  /** A field of a stored document. `_id` is the identifier the database adds. */
  datatype FieldValue = Text(text: string) | Time(time: DateTime) | ObjectId(id: nat)

  type Document = map<string, FieldValue>

  const FieldNames: set<string> := {"request_id", "author", "action", "from_branch", "to_branch", "timestamp"}

  /** `to_dict`: the record as a document keyed by field name. */
  function ToDict(e: Event): (doc: Document)
    ensures doc.Keys == FieldNames
  {
    map["request_id" := Text(e.requestId), "author" := Text(e.author), "action" := Text(e.action),
        "from_branch" := Text(e.fromBranch), "to_branch" := Text(e.toBranch),
        "timestamp" := Time(e.timestamp)]
  }

  /** Why a non-empty document does not give a record: `doc[name]` raises
      KeyError, or the field does not hold a value of the record's type. */
  datatype DocumentError = KeyError(name: string) | Mistyped(name: string)

  function TextField(doc: Document, name: string): Result<string, DocumentError> {
    if name !in doc then Failure(KeyError(name))
    else if doc[name].Text? then Success(doc[name].text)
    else Failure(Mistyped(name))
  }

  function TimeField(doc: Document, name: string): Result<DateTime, DocumentError> {
    if name !in doc then Failure(KeyError(name))
    else if doc[name].Time? then Success(doc[name].time)
    else Failure(Mistyped(name))
  }

  /** `from_db_document`: None for an absent or empty document; otherwise the
      record read from the six named fields, in keyword order. */
  function FromDbDocument(doc: Option<Document>): (r: Result<Option<Event>, DocumentError>)
    ensures (doc.None? || doc.value == map[]) ==> r == Success(None)
    ensures r.Failure? && r.error.KeyError? ==> r.error.name in FieldNames && r.error.name !in doc.value
  {
    if doc.None? || doc.value == map[] then Success(None)
    else
      var d := doc.value;
      var requestId :- TextField(d, "request_id");
      var author :- TextField(d, "author");
      var action :- TextField(d, "action");
      var fromBranch :- TextField(d, "from_branch");
      var toBranch :- TextField(d, "to_branch");
      var timestamp :- TimeField(d, "timestamp");
      Success(Some(Event(requestId, author, action, fromBranch, toBranch, timestamp)))
  }

  /** Reading back a stored record gives the record again, whatever other
      fields (such as `_id`) the stored document carries. */
  lemma FromDbDocumentOfStored(doc: Document, e: Event)
    requires forall name | name in FieldNames :: name in doc && doc[name] == ToDict(e)[name]
    ensures FromDbDocument(Some(doc)) == Success(Some(e))
  {
    assert "request_id" in doc;
  }

  /** `from_db_document(to_dict(e)) == e`. */
  lemma FromDbDocumentOfToDict(e: Event)
    ensures FromDbDocument(Some(ToDict(e))) == Success(Some(e))
  {
    FromDbDocumentOfStored(ToDict(e), e);
  }

  // ---------------------------------------------------------------- API form

  /** An event as the API serves it: every field is text. */
  datatype ApiEvent = ApiEvent(
    requestId: string,
    author: string,
    action: string,
    fromBranch: string,
    toBranch: string,
    timestamp: string)

  /** The served timestamp: the ISO form of the naive UTC time plus `Z`. */
  function ApiTimestamp(t: DateTime): string {
    IsoFormat(t) + "Z"
  }

  /** `to_api_response`. The string fields are copied unchanged; the timestamp
      text ends in `Z` and reads back as the stored time at offset zero. */
  function ToApiResponse(e: Event): (r: ApiEvent)
    ensures r.requestId == e.requestId && r.author == e.author && r.action == e.action
    ensures r.fromBranch == e.fromBranch && r.toBranch == e.toBranch
    ensures |r.timestamp| == 20 && EndsWith(r.timestamp, 'Z')
    ensures ParseIso(ReplaceZulu(r.timestamp)) == Some(IsoTime(e.timestamp, Some(0)))
  {
    ParseIsoOfZulu(e.timestamp);
    ApiEvent(e.requestId, e.author, e.action, e.fromBranch, e.toBranch, ApiTimestamp(e.timestamp))
  }

  /** The API form loses nothing: distinct records are served differently. */
  lemma ToApiResponseInjective(a: Event, b: Event)
    requires ToApiResponse(a) == ToApiResponse(b)
    ensures a == b
  {
    assert IsoFormat(a.timestamp) == ApiTimestamp(a.timestamp)[..19];
    assert IsoFormat(b.timestamp) == ApiTimestamp(b.timestamp)[..19];
    ParseLocalOfFormat(a.timestamp);
    ParseLocalOfFormat(b.timestamp);
  }
}

=== FILE: event_parser.dfy ===
/** Normalisation of GitHub push and pull-request payloads into event records.
    Every exception the Python code can raise inside its `try` block is a
    `Raised` failure here, and each parser turns any failure into None. */
module EventParser {
  import opened Wrappers
  import opened Text
  import opened Json
  import opened DateTime
  import opened EventModel

  const RefsHeads: string := "refs/heads/"
  const Unknown: string := "unknown"

  /** Why a parser gives None: an exception, a failed validation, or one of the
      explicit early returns. */
  datatype ParseFailure =
    | Raised(exc: Exc)
    | Invalid(err: ValidationError)
    | NoCommitHash
    | NoPullRequest
    | UntrackedAction

  function Lift<T>(r: Result<T, Exc>): (l: Result<T, ParseFailure>)
    ensures l.Success? <==> r.Success?
    ensures l.Success? ==> l.value == r.value
  {
    match r
    case Success(v) => Success(v)
    case Failure(e) => Failure(Raised(e))
  }

  // ---------------------------------------------------------------- timestamps

  /** `_parse_timestamp`: a falsy value or an unparseable string gives `now`;
      an offset is applied to reach UTC and then dropped; a naive time is taken
      as UTC. Only a non-string value or a conversion past the representable
      years raises, and neither exception is a ValueError. */
  function ParseTimestamp(v: Json, now: DateTime): (r: Result<DateTime, Exc>)
    ensures !Truthy(v) ==> r == Success(now)
    ensures Truthy(v) && !v.JStr? ==> r == Failure(AttributeError)
    ensures v.JStr? && ParseIso(ReplaceZulu(v.s)).None? ==> r == Success(now)
    ensures v.JStr? && v.s != [] && ParseIso(ReplaceZulu(v.s)).Some? ==>
      var parsed := ParseIso(ReplaceZulu(v.s)).value;
      match parsed.offsetMinutes
      case None => r == Success(parsed.local)
      case Some(offset) =>
        var utc := ToSeconds(parsed.local) - 60 * offset;
        && (r.Success? <==> 0 <= utc < SecondsInRange())
        && (r.Success? ==> ToSeconds(r.value) == utc)
        && (r.Failure? ==> r.error == OverflowError)
  {
    if !Truthy(v) then Success(now)
    else if !v.JStr? then Failure(AttributeError)
    else
      match ParseIso(ReplaceZulu(v.s))
      case None => Success(now)
      case Some(IsoTime(local, None)) => Success(local)
      case Some(IsoTime(local, Some(offset))) =>
        match AddSeconds(local, -60 * offset)
        case None => Failure(OverflowError)
        case Some(utc) => Success(utc)
  }

  /** Whether a timestamp value is accepted does not depend on the clock:
      `now` is only ever the value of the fallback. */
  lemma TimestampFallbackIndependent(v: Json, now: DateTime, later: DateTime)
    ensures ParseTimestamp(v, now).Success? <==> ParseTimestamp(v, later).Success?
    ensures ParseTimestamp(v, now).Failure? ==> ParseTimestamp(v, now) == ParseTimestamp(v, later)
  {
  }

  /** 15:30:00 UTC on 26 January 2024 is served as `2024-01-26T15:30:00Z`. */
  lemma ApiTimestampExample()
    ensures ApiTimestamp(Civil(2024, 1, 26, 15, 30, 0)) == "2024-01-26T15:30:00Z"
  {
    var d: DateTime := Civil(2024, 1, 26, 15, 30, 0);
    var date := Pad4(2024) + "-" + Pad2(1) + "-" + Pad2(26);
    var time := Pad2(15) + ":" + Pad2(30) + ":" + Pad2(0);
    assert date == "2024-01-26" by {
      assert Pad4(2024) == "2024";
      assert Pad2(1) == "01";
      assert Pad2(26) == "26";
    }
    assert time == "15:30:00" by {
      assert Pad2(15) == "15";
      assert Pad2(30) == "30";
      assert Pad2(0) == "00";
    }
    assert IsoFormat(d) == date + "T" + time;
  }

  /** GitHub's `"2024-01-26T15:30:00Z"` is the UTC time 2024-01-26 15:30:00,
      the very time served back as that text. */
  lemma ParseTimestampExample(now: DateTime)
    ensures ParseTimestamp(JStr("2024-01-26T15:30:00Z"), now) == Success(Civil(2024, 1, 26, 15, 30, 0))
    ensures ApiTimestamp(Civil(2024, 1, 26, 15, 30, 0)) == "2024-01-26T15:30:00Z"
  {
    var d: DateTime := Civil(2024, 1, 26, 15, 30, 0);
    ApiTimestampExample();
    assert IsoFormat(d) + "Z" == "2024-01-26T15:30:00Z";
    ParseIsoOfZulu(d);
    ToSecondsInRange(d);
    var r := ParseTimestamp(JStr("2024-01-26T15:30:00Z"), now);
    assert r.Success? && ToSeconds(r.value) == ToSeconds(d);
    ToSecondsInjective(r.value, d);
  }

  // ---------------------------------------------------------------- validation

  /** The record as the parsers construct it, before `validate`: the text
      fields still hold whatever the payload had there. */
  datatype RawEvent = RawEvent(
    requestId: Json,
    author: Json,
    action: string,
    fromBranch: Json,
    toBranch: Json,
    timestamp: DateTime)

  /** One `not x or not x.strip()` check: a falsy value fails it, a truthy
      non-string raises AttributeError at `strip`. */
  function CheckText(v: Json, err: ValidationError): (r: Result<string, ParseFailure>)
    ensures r.Success? <==> v.JStr? && HasContent(v.s)
    ensures r.Success? ==> r.value == v.s
  {
    EmptyAfterStripIffBlank(if v.JStr? then v.s else []);
    if !Truthy(v) then Failure(Invalid(err))
    else if !v.JStr? then Failure(Raised(AttributeError))
    else if Strip(v.s) == [] then Failure(Invalid(err))
    else Success(v.s)
  }

  predicate IsText(v: Json) {
    v.JStr? && HasContent(v.s)
  }

  /** `event.validate()` on the constructed record. It succeeds exactly when
      every text field holds a string with content and the action is valid;
      the record it yields then passes `Validate`. */
  function ValidateRaw(raw: RawEvent): (r: Result<Event, ParseFailure>)
    ensures r.Success? <==>
      && IsText(raw.requestId) && IsText(raw.author) && raw.action in ActionValues
      && IsText(raw.fromBranch) && IsText(raw.toBranch)
    ensures r.Success? ==>
      && r.value == Event(raw.requestId.s, raw.author.s, raw.action, raw.fromBranch.s, raw.toBranch.s, raw.timestamp)
      && Validate(r.value) == Success(true)
  {
    var requestId :- CheckText(raw.requestId, RequestIdRequired);
    var author :- CheckText(raw.author, AuthorRequired);
    if raw.action !in ActionValues then Failure(Invalid(ActionInvalid))
    else
      var fromBranch :- CheckText(raw.fromBranch, FromBranchRequired);
      var toBranch :- CheckText(raw.toBranch, ToBranchRequired);
      Success(Event(requestId, author, raw.action, fromBranch, toBranch, raw.timestamp))
  }

  // ---------------------------------------------------------------- push

  /** The branch named by `ref`: every `refs/heads/` removed, `unknown` when
      `ref` is falsy; a truthy non-string raises at `replace`. */
  function BranchOf(ref: Json): (r: Result<string, ParseFailure>)
    ensures r.Success? <==> !Truthy(ref) || ref.JStr?
  {
    if !Truthy(ref) then Success(Unknown)
    else if ref.JStr? then Success(RemoveAll(ref.s, RefsHeads))
    else Failure(Raised(AttributeError))
  }

  /** The commit id a push payload names: the head commit's id, else `after`. */
  function PushCommitHash(payload: Json): Json {
    var headId := Field(Field(payload, "head_commit", JObj([])), "id", JStr(""));
    if Truthy(headId) then headId else Field(payload, "after", JStr(""))
  }

  /** The branch a push payload names, when `BranchOf` does not raise. */
  function PushBranch(payload: Json): string {
    BranchOf(Field(payload, "ref", JStr(""))).GetOr([])
  }

  function PusherOf(payload: Json): Json {
    Field(payload, "pusher", JObj([]))
  }

  function HeadCommitOf(payload: Json): Json {
    Field(payload, "head_commit", JObj([]))
  }

  /** What the push parser reads from the payload before parsing the time. */
  datatype PushFields = PushFields(branch: string, commitHash: Json, author: Json, timestampValue: Json)

  /** The payload has the shape the push parser can read without raising, and
      names a commit. */
  predicate PushShape(payload: Json) {
    && payload.JObj?
    && BranchOf(Field(payload, "ref", JStr(""))).Success?
    && HeadCommitOf(payload).JObj?
    && Truthy(PushCommitHash(payload))
    && PusherOf(payload).JObj?
  }

  /** `parse_push_event` up to the timestamp: the reads, the branch, the
      commit-hash fallback and the early return when there is none. A `get`
      on a value already known to be a dict cannot raise and is read with
      `Field`. */
  function PushFieldsOf(payload: Json): (r: Result<PushFields, ParseFailure>)
    ensures r.Success? <==> PushShape(payload)
    ensures r.Success? ==> r.value == PushFields(
      PushBranch(payload), PushCommitHash(payload),
      Field(PusherOf(payload), "name", JStr(Unknown)),
      Field(HeadCommitOf(payload), "timestamp", JStr("")))
  {
    var ref :- Lift(Get(payload, "ref", JStr("")));
    var branch :- BranchOf(ref);
    var headCommit := Field(payload, "head_commit", JObj([]));
    var headId :- Lift(Get(headCommit, "id", JStr("")));
    var commitHash := if Truthy(headId) then headId else Field(payload, "after", JStr(""));
    if !Truthy(commitHash) then Failure(NoCommitHash)
    else
      var author :- Lift(Get(Field(payload, "pusher", JObj([])), "name", JStr(Unknown)));
      var timestampValue := Field(headCommit, "timestamp", JStr(""));
      Success(PushFields(branch, commitHash, author, timestampValue))
  }

  /** The body of `parse_push_event`'s `try` block. */
  function PushAttempt(payload: Json, now: DateTime): Result<Event, ParseFailure> {
    var fields :- PushFieldsOf(payload);
    var timestamp :- Lift(ParseTimestamp(fields.timestampValue, now));
    ValidateRaw(RawEvent(fields.commitHash, fields.author, PUSH.Value(),
                         JStr(fields.branch), JStr(fields.branch), timestamp))
  }

  /** `parse_push_event`: a validated PUSH record whose two branches agree, or None. */
  function ParsePushEvent(payload: Json, now: DateTime): (r: Option<Event>)
    ensures r.Some? ==> r.value.action == "PUSH" && r.value.fromBranch == r.value.toBranch
    ensures r.Some? ==> Validate(r.value) == Success(true)
  {
    PushAttempt(payload, now).ToOption()
  }

  /** When a push payload is accepted, stated without the exception flow. */
  predicate PushAccepted(payload: Json, now: DateTime) {
    && PushShape(payload)
    && IsText(PushCommitHash(payload))
    && IsText(Field(PusherOf(payload), "name", JStr(Unknown)))
    && ParseTimestamp(Field(HeadCommitOf(payload), "timestamp", JStr("")), now).Success?
    && HasContent(PushBranch(payload))
  }

  /** The push normaliser accepts exactly the payloads described by
      `PushAccepted`, and then the record is: the commit hash, the pusher's
      name, PUSH, the branch twice, and the head commit's parsed timestamp. */
  lemma PushEventSpec(payload: Json, now: DateTime)
    ensures ParsePushEvent(payload, now).Some? <==> PushAccepted(payload, now)
    ensures ParsePushEvent(payload, now).Some? ==>
      ParsePushEvent(payload, now).value == Event(
        PushCommitHash(payload).s, Field(PusherOf(payload), "name", JStr(Unknown)).s, "PUSH",
        PushBranch(payload), PushBranch(payload),
        ParseTimestamp(Field(HeadCommitOf(payload), "timestamp", JStr("")), now).value)
  {
    var fields := PushFieldsOf(payload);
    if fields.Success? {
      var timestamp := ParseTimestamp(fields.value.timestampValue, now);
      if timestamp.Success? {
        var raw := RawEvent(fields.value.commitHash, fields.value.author, PUSH.Value(),
                            JStr(fields.value.branch), JStr(fields.value.branch), timestamp.value);
        assert PushAttempt(payload, now) == ValidateRaw(raw);
      }
    }
  }

  /** The branch is `ref` with every `refs/heads/` removed, or `unknown` when
      `ref` is absent or falsy; a truthy `ref` that is not text gives None. */
  lemma PushBranchFromRef(payload: Json, now: DateTime)
    requires ParsePushEvent(payload, now).Some?
    ensures var ref := Field(payload, "ref", JStr(""));
      && (!Truthy(ref) ==> ParsePushEvent(payload, now).value.fromBranch == Unknown)
      && (Truthy(ref) ==> ref.JStr? && ParsePushEvent(payload, now).value.fromBranch == RemoveAll(ref.s, RefsHeads))
  {
    PushEventSpec(payload, now);
  }

  /** `refs/heads/<name>`, where the name does not itself contain the prefix,
      gives the branch `<name>`. */
  lemma PushBranchOfHeadsRef(name: string)
    requires forall i | 0 <= i <= |name| - |RefsHeads| :: !OccursAt(name, RefsHeads, i)
    ensures BranchOf(JStr(RefsHeads + name)) == Success(name)
  {
    RemoveAllLeading(RefsHeads, name);
    RemoveAllAbsent(name, RefsHeads);
  }

  /** The request id is the head commit's id when it has one, else `after`;
      with neither, the result is None. */
  lemma PushRequestId(payload: Json, now: DateTime)
    ensures !Truthy(PushCommitHash(payload)) ==> ParsePushEvent(payload, now) == None
    ensures ParsePushEvent(payload, now).Some? ==>
      var headId := Field(HeadCommitOf(payload), "id", JStr(""));
      JStr(ParsePushEvent(payload, now).value.requestId) ==
        if Truthy(headId) then headId else Field(payload, "after", JStr(""))
  {
    PushEventSpec(payload, now);
  }

  /** A push without a pusher name is attributed to `unknown`. */
  lemma PushAuthorDefault(payload: Json, now: DateTime)
    requires ParsePushEvent(payload, now).Some?
    requires !HasKey(PusherOf(payload), "name")
    ensures ParsePushEvent(payload, now).value.author == Unknown
  {
    PushEventSpec(payload, now);
  }

  /** `head_commit: null` makes `head_commit.get` raise: the result is None. */
  lemma PushWithNullHeadCommit(payload: Json, now: DateTime)
    requires Field(payload, "head_commit", JObj([])) == JNull
    ensures ParsePushEvent(payload, now) == None
  {
    PushEventSpec(payload, now);
  }

  // ---------------------------------------------------------------- pull request

  /** The action a pull-request payload maps to: MERGE for a merged close,
      PULL_REQUEST for opened/reopened/synchronize, otherwise skipped. */
  function PullRequestAction(githubAction: Json, merged: Json): (r: Option<ActionType>)
    ensures r == Some(MERGE) <==> githubAction == JStr("closed") && Truthy(merged)
    ensures r == Some(PULL_REQUEST) <==>
      githubAction in [JStr("opened"), JStr("reopened"), JStr("synchronize")]
    ensures r != Some(PUSH)
  {
    if githubAction == JStr("closed") && Truthy(merged) then Some(MERGE)
    else if githubAction in [JStr("opened"), JStr("reopened"), JStr("synchronize")] then Some(PULL_REQUEST)
    else None
  }

  /** The request id of a pull-request record: the prefix for the action and
      `str()` of the number. */
  function PullRequestId(action: ActionType, number: Json): string {
    (if action == MERGE then "MERGE-" else "PR-") + PyStr(number)
  }

  function PullRequestOf(payload: Json): Json {
    Field(payload, "pull_request", JObj([]))
  }

  /** The number of the pull request, falling back to its internal id. */
  function PullRequestNumber(pr: Json): Json {
    Field(pr, "number", Field(pr, "id", JStr("")))
  }

  function ActionOf(payload: Json): Option<ActionType> {
    PullRequestAction(Field(payload, "action", JStr("")),
                      Field(PullRequestOf(payload), "merged", JBool(false)))
  }

  /** The time field a pull-request record takes its timestamp from. */
  function TimestampSource(pr: Json, action: ActionType): Json {
    if action == MERGE then Field(pr, "merged_at", JStr(""))
    else Field(pr, "created_at", Field(pr, "updated_at", JStr("")))
  }

  /** What the pull-request parser decides from the payload's top level. */
  datatype PullRequestHeader = PullRequestHeader(pr: Json, action: ActionType, number: Json)

  /** The first half of `parse_pull_request_event`: the pull-request object,
      the action decision and the number. */
  function PullRequestHeaderOf(payload: Json): (r: Result<PullRequestHeader, ParseFailure>)
    ensures r.Success? <==>
      payload.JObj? && Truthy(PullRequestOf(payload)) && PullRequestOf(payload).JObj? && ActionOf(payload).Some?
    ensures r.Success? ==> r.value == PullRequestHeader(
      PullRequestOf(payload), ActionOf(payload).value, PullRequestNumber(PullRequestOf(payload)))
  {
    var githubAction :- Lift(Get(payload, "action", JStr("")));
    var pr := Field(payload, "pull_request", JObj([]));
    if !Truthy(pr) then Failure(NoPullRequest)
    else
      var merged :- Lift(Get(pr, "merged", JBool(false)));
      var action :- PullRequestAction(githubAction, merged).ToResult(UntrackedAction);
      var number := Field(pr, "number", Field(pr, "id", JStr("")));
      Success(PullRequestHeader(pr, action, number))
  }

  /** What the pull-request parser reads from the nested objects. */
  datatype PullRequestBody = PullRequestBody(author: Json, fromBranch: Json, toBranch: Json, timestampValue: Json)

  function UserOf(pr: Json): Json {
    Field(pr, "user", JObj([]))
  }

  function HeadOf(pr: Json): Json {
    Field(pr, "head", JObj([]))
  }

  function BaseOf(pr: Json): Json {
    Field(pr, "base", JObj([]))
  }

  /** The second half: author, branches and the timestamp field. */
  function PullRequestBodyOf(pr: Json, action: ActionType): (r: Result<PullRequestBody, ParseFailure>)
    requires pr.JObj?
    ensures r.Success? <==> UserOf(pr).JObj? && HeadOf(pr).JObj? && BaseOf(pr).JObj?
    ensures r.Success? ==> r.value == PullRequestBody(
      Field(UserOf(pr), "login", JStr(Unknown)),
      Field(HeadOf(pr), "ref", JStr(Unknown)),
      Field(BaseOf(pr), "ref", JStr(Unknown)),
      TimestampSource(pr, action))
  {
    var author :- Lift(Get(UserOf(pr), "login", JStr(Unknown)));
    var fromBranch :- Lift(Get(HeadOf(pr), "ref", JStr(Unknown)));
    var toBranch :- Lift(Get(BaseOf(pr), "ref", JStr(Unknown)));
    Success(PullRequestBody(author, fromBranch, toBranch, TimestampSource(pr, action)))
  }

  /** The body of `parse_pull_request_event`'s `try` block. */
  function PullRequestAttempt(payload: Json, now: DateTime): Result<Event, ParseFailure> {
    var header :- PullRequestHeaderOf(payload);
    var body :- PullRequestBodyOf(header.pr, header.action);
    var timestamp :- Lift(ParseTimestamp(body.timestampValue, now));
    ValidateRaw(RawEvent(JStr(PullRequestId(header.action, header.number)), body.author,
                         header.action.Value(), body.fromBranch, body.toBranch, timestamp))
  }

  /** `parse_pull_request_event`: a validated PULL_REQUEST or MERGE record, or None. */
  function ParsePullRequestEvent(payload: Json, now: DateTime): (r: Option<Event>)
    ensures r.Some? ==> Validate(r.value) == Success(true)
    ensures r.Some? ==> r.value.action in [PULL_REQUEST.Value(), MERGE.Value()]
  {
    PullRequestAttempt(payload, now).ToOption()
  }

  /** When a pull-request payload is accepted, stated without the exception flow. */
  predicate PullRequestAccepted(payload: Json, now: DateTime) {
    var pr := PullRequestOf(payload);
    && payload.JObj? && Truthy(pr) && pr.JObj? && ActionOf(payload).Some?
    && UserOf(pr).JObj? && HeadOf(pr).JObj? && BaseOf(pr).JObj?
    && IsText(Field(UserOf(pr), "login", JStr(Unknown)))
    && IsText(Field(HeadOf(pr), "ref", JStr(Unknown)))
    && IsText(Field(BaseOf(pr), "ref", JStr(Unknown)))
    && ParseTimestamp(TimestampSource(pr, ActionOf(payload).value), now).Success?
  }

  /** The pull-request normaliser accepts exactly the payloads described by
      `PullRequestAccepted`, and then builds the record from the action, the
      number, `user.login`, `head.ref`, `base.ref` and the chosen time field. */
  lemma PullRequestEventSpec(payload: Json, now: DateTime)
    ensures ParsePullRequestEvent(payload, now).Some? <==> PullRequestAccepted(payload, now)
    ensures ParsePullRequestEvent(payload, now).Some? ==>
      var pr := PullRequestOf(payload);
      var action := ActionOf(payload).value;
      ParsePullRequestEvent(payload, now).value == Event(
        PullRequestId(action, PullRequestNumber(pr)),
        Field(UserOf(pr), "login", JStr(Unknown)).s,
        action.Value(),
        Field(HeadOf(pr), "ref", JStr(Unknown)).s,
        Field(BaseOf(pr), "ref", JStr(Unknown)).s,
        ParseTimestamp(TimestampSource(pr, action), now).value)
  {
    var header := PullRequestHeaderOf(payload);
    if header.Failure? {
      assert PullRequestAttempt(payload, now).Failure?;
      return;
    }
    var h := header.value;
    var body := PullRequestBodyOf(h.pr, h.action);
    if body.Failure? {
      assert PullRequestAttempt(payload, now).Failure?;
      return;
    }
    var timestamp := ParseTimestamp(body.value.timestampValue, now);
    if timestamp.Failure? {
      assert PullRequestAttempt(payload, now).Failure?;
      return;
    }
    var raw := RawEvent(JStr(PullRequestId(h.action, h.number)), body.value.author, h.action.Value(),
                        body.value.fromBranch, body.value.toBranch, timestamp.value);
    assert PullRequestAttempt(payload, now) == ValidateRaw(raw);
    PullRequestIdIsText(h.action, h.number);
  }

  /** A pull-request request id always has content: it starts with a letter. */
  lemma PullRequestIdIsText(action: ActionType, number: Json)
    ensures IsText(JStr(PullRequestId(action, number)))
  {
    var id := PullRequestId(action, number);
    assert id[0] in "MP";
    assert !IsSpace(id[0]);
  }

  /** A missing, null or empty `pull_request` gives None. */
  lemma PullRequestMissing(payload: Json, now: DateTime)
    requires !Truthy(PullRequestOf(payload))
    ensures ParsePullRequestEvent(payload, now) == None
  {
    PullRequestEventSpec(payload, now);
  }

  /** A merged close gives MERGE, with `MERGE-` and the number (else the id). */
  lemma PullRequestMerged(payload: Json, now: DateTime)
    requires Field(payload, "action", JStr("")) == JStr("closed")
    requires Truthy(Field(PullRequestOf(payload), "merged", JBool(false)))
    requires ParsePullRequestEvent(payload, now).Some?
    ensures var e := ParsePullRequestEvent(payload, now).value;
      && e.action == "MERGE"
      && e.requestId == "MERGE-" + PyStr(PullRequestNumber(PullRequestOf(payload)))
  {
    PullRequestEventSpec(payload, now);
  }

  /** opened, reopened and synchronize give PULL_REQUEST, with `PR-` and the
      number (else the id). */
  lemma PullRequestOpened(payload: Json, now: DateTime)
    requires Field(payload, "action", JStr("")) in [JStr("opened"), JStr("reopened"), JStr("synchronize")]
    requires ParsePullRequestEvent(payload, now).Some?
    ensures var e := ParsePullRequestEvent(payload, now).value;
      && e.action == "PULL_REQUEST"
      && e.requestId == "PR-" + PyStr(PullRequestNumber(PullRequestOf(payload)))
  {
    PullRequestEventSpec(payload, now);
  }

  /** Any other action, a close without merge among them, gives None. */
  lemma PullRequestUntracked(payload: Json, now: DateTime)
    requires Field(payload, "action", JStr("")) !in [JStr("opened"), JStr("reopened"), JStr("synchronize")]
    requires Field(payload, "action", JStr("")) != JStr("closed")
          || !Truthy(Field(PullRequestOf(payload), "merged", JBool(false)))
    ensures ParsePullRequestEvent(payload, now) == None
  {
    PullRequestEventSpec(payload, now);
  }

  /** Author and branches default to `unknown` when their keys are absent. */
  lemma PullRequestFieldDefaults(payload: Json, now: DateTime)
    requires ParsePullRequestEvent(payload, now).Some?
    ensures var pr := PullRequestOf(payload);
      var e := ParsePullRequestEvent(payload, now).value;
      && (!HasKey(UserOf(pr), "login") ==> e.author == Unknown)
      && (!HasKey(HeadOf(pr), "ref") ==> e.fromBranch == Unknown)
      && (!HasKey(BaseOf(pr), "ref") ==> e.toBranch == Unknown)
  {
    PullRequestEventSpec(payload, now);
  }

  /** The number falls back to the internal id only when `number` is absent. */
  lemma PullRequestNumberFallback(pr: Json)
    requires pr.JObj?
    ensures HasKey(pr, "number") ==> PullRequestNumber(pr) == Lookup(pr.fields, "number").value
    ensures !HasKey(pr, "number") ==> PullRequestNumber(pr) == Field(pr, "id", JStr(""))
  {
  }

  /** The timestamp comes from `merged_at` for a merge; otherwise from
      `created_at`, and from `updated_at` only when `created_at` is absent. */
  lemma PullRequestTimestampSource(pr: Json, action: ActionType)
    requires pr.JObj?
    ensures action == MERGE ==> TimestampSource(pr, action) == Field(pr, "merged_at", JStr(""))
    ensures action != MERGE && HasKey(pr, "created_at") ==>
      TimestampSource(pr, action) == Lookup(pr.fields, "created_at").value
    ensures action != MERGE && !HasKey(pr, "created_at") ==>
      TimestampSource(pr, action) == Field(pr, "updated_at", JStr(""))
  {
  }
}

=== FILE: event_service.dfy ===
/** The event store: an idempotent insert keyed by request id, and the two
    newest-first queries the UI polls. The database collection is a sequence
    of records whose request ids are distinct, which is what its unique index
    on `request_id` guarantees. */
module EventService {
  import opened Wrappers
  import opened DateTime
  import opened EventModel
  import opened Sorting

  /** The polling window, in seconds, used when no `since` is given. */
  const EventTimeWindow: int := 15
  const DefaultRecentLimit: int := 50

  // ---------------------------------------------------------------- the store

  /** The request ids of the records, in store order. */
  function Ids(s: seq<Event>): (ids: seq<string>)
    ensures |ids| == |s|
    ensures forall i | 0 <= i < |s| :: ids[i] == s[i].requestId
  {
    seq(|s|, i requires 0 <= i < |s| => s[i].requestId)
  }

  predicate UniqueIds(s: seq<Event>) {
    forall i, j | 0 <= i < j < |s| :: s[i].requestId != s[j].requestId
  }

  /** The collection: no two records share a request id. */
  type Store = s: seq<Event> | UniqueIds(s) witness []

  datatype SaveResult = SaveResult(saved: bool, store: Store)

  /** `save_event`: a record that fails validation, or whose request id is
      already stored (the DuplicateKeyError), is refused with False and the
      store unchanged; otherwise it is appended and True is returned. */
  function SaveEvent(store: Store, e: Event): (r: SaveResult)
    ensures r.saved <==> IsValid(e) && e.requestId !in Ids(store)
    ensures r.saved ==> r.store == store + [e]
    ensures !r.saved ==> r.store == store
  {
    if Validate(e).Failure? then SaveResult(false, store)
    else if e.requestId in Ids(store) then SaveResult(false, store)
    else
      AppendKeepsUnique(store, e);
      SaveResult(true, store + [e])
  }

  /** The unique index admits a record whose request id is not yet stored. */
  lemma AppendKeepsUnique(store: Store, e: Event)
    requires e.requestId !in Ids(store)
    ensures UniqueIds(store + [e])
  {
    var s := store + [e];
    forall i, j | 0 <= i < j < |s|
      ensures s[i].requestId != s[j].requestId
    {
      if j == |store| {
        assert Ids(store)[i] == s[i].requestId;
      }
    }
  }

  /** `get_events_count`. */
  function EventsCount(store: Store): nat {
    |store|
  }

  /** A successful save adds exactly one record to the count; a refused save
      adds none. */
  lemma SaveEventCount(store: Store, e: Event)
    ensures SaveEvent(store, e).saved ==> EventsCount(SaveEvent(store, e).store) == EventsCount(store) + 1
    ensures !SaveEvent(store, e).saved ==> EventsCount(SaveEvent(store, e).store) == EventsCount(store)
  {
  }

  /** Delivering the same valid record twice: the first save stores it, the
      second is refused as a duplicate and changes nothing. */
  lemma SaveEventTwice(store: Store, e: Event)
    requires IsValid(e) && e.requestId !in Ids(store)
    ensures var first := SaveEvent(store, e);
      && first.saved
      && !SaveEvent(first.store, e).saved
      && SaveEvent(first.store, e).store == first.store
  {
    var first := SaveEvent(store, e);
    assert Ids(first.store)[|store|] == e.requestId;
  }

  /** Any sequence of saves leaves the store with distinct request ids, and a
      record is found under its id afterwards exactly when it was there before
      or was just saved. */
  lemma SaveEventKeepsRecords(store: Store, e: Event)
    ensures UniqueIds(SaveEvent(store, e).store)
    ensures forall x | x in store :: x in SaveEvent(store, e).store
    ensures forall x | x in SaveEvent(store, e).store :: x in store || x == e
  {
  }

  // ---------------------------------------------------------------- queries

  /** The time a record sorts and filters by, as the database compares it. */
  function Seconds(e: Event): int {
    ToSeconds(e.timestamp)
  }

  /** `{"timestamp": {"$gt": bound}}`, or no filter at all. */
  predicate Matches(e: Event, bound: Option<DateTime>) {
    bound.None? || Seconds(e) > ToSeconds(bound.value)
  }

  /** The database's `$gt` agrees with Python's comparison of the two times. */
  lemma MatchesIsAfter(e: Event, bound: DateTime)
    ensures Matches(e, Some(bound)) <==> Before(bound, e.timestamp)
  {
    BeforeIsEarlier(bound, e.timestamp);
  }

  /** `find(query)`: the matching records, in store order. */
  function Filter(s: seq<Event>, bound: Option<DateTime>): (r: seq<Event>)
    ensures |r| <= |s|
    ensures forall e :: e in r <==> e in s && Matches(e, bound)
  {
    if s == [] then []
    else (if Matches(s[0], bound) then [s[0]] else []) + Filter(s[1..], bound)
  }

  /** Newest first: no record is older than one after it. */
  predicate NewestFirst(s: seq<Event>) {
    Descending(s, Seconds)
  }

  /** `sort("timestamp", -1)`: newest first. The database leaves the order of
      equal times open, and this sort fixes one of the orders it may produce. */
  function SortNewestFirst(s: seq<Event>): (r: seq<Event>)
    ensures multiset(r) == multiset(s)
    ensures NewestFirst(r)
  {
    SortDescending(s, Seconds)
  }

  /** `limit(n)` of the database driver: 0 means no limit, and a negative
      limit is taken by its magnitude. */
  function Limit(s: seq<Event>, n: int): (r: seq<Event>)
    ensures n == 0 ==> r == s
    ensures n != 0 ==> |r| == if |s| < Abs(n) then |s| else Abs(n)
    ensures r == s[..|r|]
  {
    if n == 0 || |s| <= Abs(n) then s else s[..Abs(n)]
  }

  function Abs(n: int): nat {
    if n < 0 then -n else n
  }

  /** `find(query).sort("timestamp", -1).limit(n)`. */
  function Query(store: Store, bound: Option<DateTime>, n: int): (r: seq<Event>)
  {
    Limit(SortNewestFirst(Filter(store, bound)), n)
  }

  /** The number of stored records a query matches. */
  function MatchCount(store: Store, bound: Option<DateTime>): nat {
    |Filter(store, bound)|
  }

  /** The query's records before the limit: the matching records, newest first. */
  lemma SortedMatches(store: Store, bound: Option<DateTime>, n: int)
    ensures var sorted := SortNewestFirst(Filter(store, bound));
      && |sorted| == MatchCount(store, bound)
      && (forall e :: e in sorted <==> e in store && Matches(e, bound))
      && Query(store, bound, n) == sorted[..|Query(store, bound, n)|]
  {
    PermutationElements(SortNewestFirst(Filter(store, bound)), Filter(store, bound));
  }

  /** Only matching records of the store are returned. */
  lemma QueryMembers(store: Store, bound: Option<DateTime>, n: int)
    ensures forall e | e in Query(store, bound, n) :: e in store && Matches(e, bound)
  {
    SortedMatches(store, bound, n);
    var sorted := SortNewestFirst(Filter(store, bound));
    forall e | e in Query(store, bound, n)
      ensures e in store && Matches(e, bound)
    {
      assert e in sorted;
    }
  }

  /** A matching record that is left out is no newer than any returned one. */
  lemma QueryKeepsNewest(store: Store, bound: Option<DateTime>, n: int)
    ensures var r := Query(store, bound, n);
      forall e, x | e in store && Matches(e, bound) && e !in r && x in r :: Seconds(e) <= Seconds(x)
  {
    SortedMatches(store, bound, n);
    var sorted := SortNewestFirst(Filter(store, bound));
    var r := Query(store, bound, n);
    forall e, x | e in store && Matches(e, bound) && e !in r && x in r
      ensures Seconds(e) <= Seconds(x)
    {
      var j :| 0 <= j < |sorted| && sorted[j] == e;
      var i :| 0 <= i < |r| && r[i] == x;
      assert sorted[i] == x;
    }
  }

  /** When the limit allows, no matching record is left out. */
  lemma QueryComplete(store: Store, bound: Option<DateTime>, n: int)
    requires n == 0 || MatchCount(store, bound) <= Abs(n)
    ensures forall e | e in store && Matches(e, bound) :: e in Query(store, bound, n)
  {
    SortedMatches(store, bound, n);
    assert Query(store, bound, n) == SortNewestFirst(Filter(store, bound));
  }

  /** What a query returns: records of the store that match, newest first, as
      many as the limit allows; any matching record left out is no newer than
      every record returned, and none is left out when the limit allows. */
  lemma QuerySpec(store: Store, bound: Option<DateTime>, n: int)
    ensures var r := Query(store, bound, n);
      && (forall e | e in r :: e in store && Matches(e, bound))
      && NewestFirst(r)
      && |r| == (if n == 0 || MatchCount(store, bound) < Abs(n) then MatchCount(store, bound) else Abs(n))
      && (forall e, x | e in store && Matches(e, bound) && e !in r && x in r :: Seconds(e) <= Seconds(x))
      && ((n == 0 || MatchCount(store, bound) <= Abs(n)) ==>
            forall e | e in store && Matches(e, bound) :: e in r)
  {
    SortedMatches(store, bound, n);
    QueryMembers(store, bound, n);
    QueryKeepsNewest(store, bound, n);
    if n == 0 || MatchCount(store, bound) <= Abs(n) {
      QueryComplete(store, bound, n);
    }
  }

  // ---------------------------------------------------------------- the service calls

  /** The API form of each record, in order: `to_api_response` of what
      `from_db_document` reads back, which is the record itself. */
  function Responses(events: seq<Event>): (r: seq<ApiEvent>)
    ensures |r| == |events|
    ensures forall i | 0 <= i < |events| :: r[i] == ToApiResponse(events[i])
  {
    seq(|events|, i requires 0 <= i < |events| => ToApiResponse(events[i]))
  }

  /** The lower bound `get_recent_events` filters by: `since`, or `now` minus
      the window; subtracting the window from a time in the first fifteen
      seconds of year 1 raises OverflowError, given here as None. */
  function RecentBound(since: Option<DateTime>, now: DateTime): (r: Option<DateTime>)
    ensures since.Some? ==> r == since
    ensures since.None? ==> (r.Some? <==> ToSeconds(now) >= EventTimeWindow)
    ensures since.None? && r.Some? ==> ToSeconds(r.value) == ToSeconds(now) - EventTimeWindow
  {
    ToSecondsInRange(now);
    if since.Some? then since else AddSeconds(now, -EventTimeWindow)
  }

  /** The records `get_recent_events(since, limit)` reads with the clock at
      `now`: None is the OverflowError of the default window. The function
      returns their API form, `Responses`. */
  function RecentRecords(store: Store, since: Option<DateTime>, limit: int, now: DateTime): Option<seq<Event>> {
    var bound :- RecentBound(since, now);
    Some(Query(store, Some(bound), limit))
  }

  /** The records `get_all_events(limit)` reads: no time filter. The
      function returns their API form, `Responses`. */
  function AllRecords(store: Store, limit: int): seq<Event> {
    Query(store, None, limit)
  }

  /** `get_recent_events` serves stored records strictly after `since`, or,
      without `since`, strictly inside the fifteen seconds before `now`;
      newest first and no more than a positive limit. */
  lemma RecentEventsWindow(store: Store, since: Option<DateTime>, limit: int, now: DateTime)
    ensures since.Some? ==> RecentRecords(store, since, limit, now).Some?
    ensures RecentRecords(store, since, limit, now).Some? ==>
      var r := RecentRecords(store, since, limit, now).value;
      && NewestFirst(r)
      && (limit > 0 ==> |r| <= limit)
      && (forall e | e in r :: e in store)
      && (forall e | e in r :: since.Some? ==> Seconds(e) > ToSeconds(since.value))
      && (forall e | e in r :: since.None? ==> Seconds(e) > ToSeconds(now) - EventTimeWindow)
  {
    var bound := RecentBound(since, now);
    if bound.Some? {
      QuerySpec(store, bound, limit);
    }
  }

  /** `get_all_events` serves every stored record, newest first, when the
      limit allows. */
  lemma AllEventsComplete(store: Store, limit: int)
    requires limit == 0 || |store| <= Abs(limit)
    ensures |AllRecords(store, limit)| == |store|
    ensures forall e | e in store :: e in AllRecords(store, limit)
    ensures NewestFirst(AllRecords(store, limit))
  {
    QuerySpec(store, None, limit);
    FilterAll(store);
  }

  lemma FilterAll(s: seq<Event>)
    ensures Filter(s, None) == s
  {
  }

  /** A record ten seconds old is served by the default poll; one twenty
      seconds old is not. */
  lemma RecentWindowExample(store: Store, now: DateTime, recent: Event, older: Event)
    requires ToSeconds(now) >= EventTimeWindow
    requires Seconds(recent) == ToSeconds(now) - 10
    requires Seconds(older) == ToSeconds(now) - 20
    requires recent in store && older in store
    requires |store| <= DefaultRecentLimit
    ensures RecentRecords(store, None, DefaultRecentLimit, now).Some?
    ensures recent in RecentRecords(store, None, DefaultRecentLimit, now).value
    ensures older !in RecentRecords(store, None, DefaultRecentLimit, now).value
  {
    var bound := RecentBound(None, now);
    QuerySpec(store, bound, DefaultRecentLimit);
    assert recent in Filter(store, bound);
  }
}

=== FILE: events_route.dfy ===
/** `GET /events` and `GET /events/stats`: the query parameters decide the
    limit, the time filter and whether the filter applies at all; the reply
    carries the served records and the timestamp to poll from next. */
module EventsRoute {
  import opened Wrappers
  import opened Text
  import opened DateTime
  import opened EventModel
  import opened EventService

  const DefaultLimit: int := 50
  const MinLimit: int := 1
  const MaxLimit: int := 100

  const FetchFailedMessage: string := "Failed to fetch events"
  const InvalidTimestampMessage: string := "Invalid timestamp format: "

  /** The query string; a repeated parameter yields its first value. */
  type Args = map<string, string>

  /** The JSON reply of the two endpoints. */
  datatype Reply =
    | Listing(events: seq<ApiEvent>, count: nat, lastTimestamp: Option<string>, totalInDb: nat)
    | Stats(totalEvents: nat)
    | Error(message: string)
  {
    function Status(): string {
      if Error? then "error" else "success"
    }
  }

  datatype Response = Response(code: int, reply: Reply)

  /** `int(request.args.get("limit", 50))`: None where `int` raises. */
  function LimitArg(args: Args): Option<int> {
    if "limit" in args then ParsePyInt(args["limit"]) else Some(DefaultLimit)
  }

  /** The limit forced into 1..100. */
  function Clamp(limit: int): (r: int)
    ensures MinLimit <= r <= MaxLimit
    ensures MinLimit <= limit <= MaxLimit ==> r == limit
    ensures limit < MinLimit ==> r == MinLimit
    ensures limit > MaxLimit ==> r == MaxLimit
  {
    if limit < MinLimit then MinLimit else if limit > MaxLimit then MaxLimit else limit
  }

  /** `request.args.get("all", "false").lower() == "true"`. Only ASCII
      letters lower-case into the letters of `true`, so ASCII lower-casing
      decides it. */
  predicate FetchAll(args: Args) {
    "all" in args && AsciiLower(args["all"]) == "true"
  }

  /** A character that lower-cases to the ASCII letter `l` is `l` or its
      capital. */
  lemma LowerCharIs(c: char, l: char)
    requires 'a' <= l <= 'z'
    ensures AsciiLowerChar(c) == l <==> c == l || c == (l as int - 32) as char
  {
  }

  /** `all` selects the unfiltered listing exactly when it spells `true` in
      any mix of upper and lower case: `TRUE` and `True` do, `yes` does not. */
  lemma FetchAllIgnoresCase(args: Args)
    ensures FetchAll(args) <==>
      && "all" in args && |args["all"]| == 4
      && forall i | 0 <= i < 4 :: args["all"][i] == "true"[i] || args["all"][i] == "TRUE"[i]
  {
    if "all" in args && |args["all"]| == 4 {
      var v := args["all"];
      forall i | 0 <= i < 4
        ensures AsciiLowerChar(v[i]) == "true"[i] <==> v[i] == "true"[i] || v[i] == "TRUE"[i]
      {
        LowerCharIs(v[i], "true"[i]);
      }
      var low := AsciiLower(v);
      assert low == "true" <==> forall i | 0 <= i < 4 :: low[i] == "true"[i];
    }
  }

  /** Why no records are listed. */
  datatype FetchError = LimitNotInteger | InvalidTimestamp | WindowOverflow

  /** The `since` parameter: absent or empty means none; otherwise a trailing
      `Z` becomes `+00:00`, the text must parse as an ISO date-time, and its
      offset is dropped without converting the wall-clock time. */
  function SinceArg(args: Args): (r: Result<Option<DateTime>, FetchError>)
    ensures r.Failure? ==> r.error == InvalidTimestamp
    ensures ("since" !in args || args["since"] == []) ==> r == Success(None)
    ensures "since" in args && args["since"] != [] ==>
      && (r.Failure? <==> ParseIso(ReplaceZulu(args["since"])).None?)
      && (r.Success? ==> r.value == Some(ParseIso(ReplaceZulu(args["since"])).value.local))
  {
    if "since" !in args || args["since"] == [] then Success(None)
    else
      match ParseIso(ReplaceZulu(args["since"]))
      case None => Failure(InvalidTimestamp)
      case Some(t) => Success(Some(t.local))
  }

  /** The records `get_events` serves, or why it serves none: the limit is
      read first, then `since`, then the store is queried. */
  function FetchRecords(args: Args, store: Store, now: DateTime): (r: Result<seq<Event>, FetchError>)
    ensures LimitArg(args).None? ==> r == Failure(LimitNotInteger)
    ensures r.Success? ==> |r.value| <= Clamp(LimitArg(args).value) && NewestFirst(r.value)
    ensures r.Success? ==> forall e | e in r.value :: e in store
  {
    var raw :- LimitArg(args).ToResult(LimitNotInteger);
    var limit := Clamp(raw);
    var since :- SinceArg(args);
    QuerySpec(store, None, limit);
    RecentEventsWindow(store, since, limit, now);
    if FetchAll(args) then Success(AllRecords(store, limit))
    else RecentRecords(store, since, limit, now).ToResult(WindowOverflow)
  }

  /** `get_events`. */
  function GetEvents(args: Args, store: Store, now: DateTime): (r: Response)
    ensures r.code in {200, 400, 500}
    ensures r.code == 200 <==> r.reply.Listing?
    ensures r.code != 200 ==> r.reply.Error?
    ensures r.code == 400 <==> FetchRecords(args, store, now) == Failure(InvalidTimestamp)
    ensures FetchRecords(args, store, now).Success? ==>
      && r.code == 200 && r.reply.Listing?
      && r.reply.events == Responses(FetchRecords(args, store, now).value)
    ensures r.reply.Listing? ==>
      && r.reply.count == |r.reply.events|
      && r.reply.totalInDb == EventsCount(store)
      && (r.reply.lastTimestamp.None? <==> r.reply.events == [])
      && (r.reply.events != [] ==> r.reply.lastTimestamp == Some(r.reply.events[0].timestamp))
  {
    match FetchRecords(args, store, now)
    case Failure(InvalidTimestamp) => Response(400, Error(InvalidTimestampMessage))
    case Failure(_) => Response(500, Error(FetchFailedMessage))
    case Success(records) =>
      var events := Responses(records);
      var last := if events == [] then None else Some(events[0].timestamp);
      Response(200, Listing(events, |events|, last, EventsCount(store)))
  }

  /** `get_stats`. */
  function GetStats(store: Store): (r: Response)
    ensures r.code == 200 && r.reply.Stats? && r.reply.totalEvents == |store|
  {
    Response(200, Stats(EventsCount(store)))
  }

  /** A limit that `int` rejects is a 500, whatever `since` holds: the limit
      is read before `since` is looked at. */
  lemma NonIntegerLimitIsServerError(args: Args, store: Store, now: DateTime)
    requires "limit" in args && ParsePyInt(args["limit"]).None?
    ensures GetEvents(args, store, now) == Response(500, Error(FetchFailedMessage))
  {
  }

  /** A limit written with more digits than `int()` converts is a 500 too,
      though it is a well-formed integer. */
  lemma OverlongLimitIsServerError(i: int, store: Store, now: DateTime)
    requires DigitCount(i) > MaxStrDigits
    ensures GetEvents(map["limit" := IntToDecimal(i)], store, now) == Response(500, Error(FetchFailedMessage))
  {
    PyIntOfDecimal(i);
    NonIntegerLimitIsServerError(map["limit" := IntToDecimal(i)], store, now);
  }

  /** An unparseable `since` is a 400, with or without `all=true`. */
  lemma InvalidSinceIsClientError(args: Args, store: Store, now: DateTime)
    requires LimitArg(args).Some?
    requires SinceArg(args).Failure?
    ensures GetEvents(args, store, now) == Response(400, Error(InvalidTimestampMessage))
  {
  }

  /** The limit in effect: 50 without the parameter, otherwise its value
      forced into 1..100; at most that many records are served. */
  lemma LimitInEffect(args: Args, store: Store, now: DateTime)
    requires LimitArg(args).Some?
    ensures "limit" !in args ==> Clamp(LimitArg(args).value) == DefaultLimit
    ensures GetEvents(args, store, now).reply.Listing? ==>
      |GetEvents(args, store, now).reply.events| <= Clamp(LimitArg(args).value) <= MaxLimit
  {
  }

  /** `limit=0` behaves as 1. */
  lemma ZeroLimitIsOne()
    ensures LimitArg(map["limit" := "0"]) == Some(0) && Clamp(0) == 1
  {
    PyIntOfDecimal(0);
    assert IntToDecimal(0) == "0";
  }

  /** `limit=500` behaves as 100. */
  lemma LargeLimitIsHundred()
    ensures LimitArg(map["limit" := "500"]) == Some(500) && Clamp(500) == 100
  {
    assert DecimalDigits(5) == "5";
    assert DecimalDigits(50) == "50" by {
      assert DecimalDigits(50) == DecimalDigits(5) + [DigitChar(0)];
    }
    assert DecimalDigits(500) == "500" by {
      assert DecimalDigits(500) == DecimalDigits(50) + [DigitChar(0)];
    }
    PyIntOfDecimal(500);
  }

  /** `all=true` lists without a time filter; otherwise the records newer
      than `since`, or than the window before `now`, are listed. */
  lemma Dispatch(args: Args, store: Store, now: DateTime)
    requires LimitArg(args).Some? && SinceArg(args).Success?
    ensures var limit := Clamp(LimitArg(args).value);
      && (FetchAll(args) ==> FetchRecords(args, store, now) == Success(AllRecords(store, limit)))
      && (!FetchAll(args) ==>
            FetchRecords(args, store, now) == RecentRecords(store, SinceArg(args).value, limit, now).ToResult(WindowOverflow))
  {
  }

  /** The timestamp the listing hands back reads back, as `since`, as the
      very time it was rendered from. */
  lemma SinceOfServedTimestamp(t: DateTime)
    ensures SinceArg(map["since" := ApiTimestamp(t)]) == Success(Some(t))
  {
    ParseIsoOfZulu(t);
  }

  /** A `since` with any offset `fromisoformat` accepts, `+00:60` among them,
      is accepted, and its wall-clock time is used as it stands: the offset
      is dropped, not applied. */
  lemma SinceDropsOffset(t: DateTime, offset: string)
    requires |offset| == 6 && ParseOffset(offset).Some?
    ensures SinceArg(map["since" := IsoFormat(t) + offset]) == Success(Some(t))
  {
    var s := IsoFormat(t) + offset;
    ParseLocalOfFormat(t);
    assert s[..19] == IsoFormat(t) && s[19..] == offset;
    assert ReplaceZulu(s) == s by {
      assert s[|s| - 1] == offset[5] && IsDigit(offset[5]);
    }
  }

  /** Polling: the listing's `last_timestamp` is the newest served record's
      time, and the next poll `since` that timestamp serves only records
      strictly newer than it, so nothing served is served again. */
  lemma PollingAdvances(args: Args, store: Store, now: DateTime, later: DateTime, next: Store)
    requires FetchRecords(args, store, now).Success?
    requires FetchRecords(args, store, now).value != []
    ensures var served := FetchRecords(args, store, now).value;
      var last := GetEvents(args, store, now).reply.lastTimestamp;
      && last == Some(ApiTimestamp(served[0].timestamp))
      && (forall e | e in served :: Seconds(e) <= Seconds(served[0]))
      && FetchRecords(map["since" := last.value], next, later).Success?
      && (forall e | e in FetchRecords(map["since" := last.value], next, later).value ::
            Seconds(e) > Seconds(served[0]))
  {
    var served := FetchRecords(args, store, now).value;
    var first := served[0];
    forall e | e in served
      ensures Seconds(e) <= Seconds(first)
    {
      var k :| 0 <= k < |served| && served[k] == e;
    }
    var nextArgs := map["since" := ApiTimestamp(first.timestamp)];
    SinceOfServedTimestamp(first.timestamp);
    assert LimitArg(nextArgs) == Some(DefaultLimit);
    assert !FetchAll(nextArgs);
    RecentEventsWindow(next, Some(first.timestamp), DefaultLimit, later);
  }
}

=== FILE: json.dfy ===
/** The loosely typed webhook payload: the value `request.get_json()` hands to
    the handlers, with Python's truthiness, `dict.get` and `str()`. */
module Json {
  import opened Wrappers
  import opened Text

  /** A decoded JSON document. An object keeps its members in document order,
      as a Python dict does; its keys are distinct in a decoded dict, and lookup
      takes the first member with the key. */
  datatype Json =
    | JNull
    | JBool(b: bool)
    | JInt(i: int)
    | JStr(s: string)
    | JArr(items: seq<Json>)
    | JObj(fields: seq<(string, Json)>)

  /** The Python exceptions the modelled code can raise or catch. */
  datatype Exc =
    | AttributeError  // a method called on a value of the wrong type
    | ValueError      // a malformed literal or an invalid field
    | OverflowError   // a date-time moved outside years 1..9999

  /** Python truthiness of the decoded value (`if x:` / `not x`). */
  predicate Truthy(v: Json) {
    match v
    case JNull => false
    case JBool(b) => b
    case JInt(i) => i != 0
    case JStr(s) => s != []
    case JArr(items) => items != []
    case JObj(fields) => fields != []
  }

  function Lookup(fields: seq<(string, Json)>, key: string): (r: Option<Json>)
    ensures r.Some? ==> (key, r.value) in fields
    ensures r.None? <==> forall j | 0 <= j < |fields| :: fields[j].0 != key
  {
    if fields == [] then None
    else if fields[0].0 == key then Some(fields[0].1)
    else Lookup(fields[1..], key)
  }

  /** The value `v.get(key, default)` gives when `v` is a dict. */
  function Field(v: Json, key: string, default: Json): Json {
    if v.JObj? then Lookup(v.fields, key).GetOr(default) else default
  }

  /** `v.get(key, default)`: only a dict has `get`; on any other value Python
      raises AttributeError. */
  function Get(v: Json, key: string, default: Json): (r: Result<Json, Exc>)
    ensures r.Success? <==> v.JObj?
    ensures r.Failure? ==> r.error == AttributeError
    ensures r.Success? ==> r.value == Field(v, key, default)
  {
    if v.JObj? then Success(Field(v, key, default)) else Failure(AttributeError)
  }

  /** `.get` on a dict: an absent key gives the default, and a present key
      gives the value of the first member with that key. */
  lemma FieldLookup(v: Json, key: string, default: Json)
    requires v.JObj?
    ensures (forall j | 0 <= j < |v.fields| :: v.fields[j].0 != key) ==> Field(v, key, default) == default
    ensures Field(v, key, default) != default ==> (key, Field(v, key, default)) in v.fields
    ensures (exists j | 0 <= j < |v.fields| :: v.fields[j].0 == key) ==>
      exists j | 0 <= j < |v.fields| ::
        && v.fields[j] == (key, Field(v, key, default))
        && forall k | 0 <= k < j :: v.fields[k].0 != key
  {
    if Lookup(v.fields, key).Some? {
      LookupFirst(v.fields, key);
    }
  }

  /** A successful lookup finds the first member with the key. */
  lemma {:induction false} LookupFirst(fields: seq<(string, Json)>, key: string)
    requires Lookup(fields, key).Some?
    ensures exists j | 0 <= j < |fields| ::
      && fields[j] == (key, Lookup(fields, key).value)
      && forall k | 0 <= k < j :: fields[k].0 != key
  {
    if fields[0].0 == key {
      assert fields[0] == (key, Lookup(fields, key).value);
    } else {
      LookupFirst(fields[1..], key);
      var j :| 0 <= j < |fields[1..]| &&
        fields[1..][j] == (key, Lookup(fields[1..], key).value) &&
        forall k | 0 <= k < j :: fields[1..][k].0 != key;
      assert fields[j + 1] == (key, Lookup(fields, key).value);
      forall k | 0 <= k < j + 1
        ensures fields[k].0 != key
      {
        if k > 0 {
          assert fields[k] == fields[1..][k - 1];
        }
      }
    }
  }

  /** `key in v` for a dict `v`. */
  predicate HasKey(v: Json, key: string) {
    v.JObj? && Lookup(v.fields, key).Some?
  }

  // ---------------------------------------------------------------- str()

  function HexDigit(d: nat): char
    requires d < 16
  {
    if d < 10 then DigitChar(d) else ('a' as int + d - 10) as char
  }

  /** How `repr` writes one character of a string quoted with `q`. Characters
      above U+00FF are written as themselves. */
  function EscapeChar(c: char, q: char): string {
    if c == '\\' then "\\\\"
    else if c == q then ['\\', q]
    else if c == '\t' then "\\t"
    else if c == '\n' then "\\n"
    else if c == '\r' then "\\r"
    else if c < ' ' || ('\U{7F}' <= c <= '\U{A0}') || c == '\U{AD}' then
      "\\x" + [HexDigit(c as int / 16), HexDigit(c as int % 16)]
    else [c]
  }

  function Escape(s: string, q: char): string
    decreases |s|
  {
    if s == [] then [] else EscapeChar(s[0], q) + Escape(s[1..], q)
  }

  /** `repr` of a string: single quotes unless the text holds a single quote
      and no double quote. */
  function QuoteRepr(s: string): string {
    var q := if '\'' in s && '"' !in s then '"' else '\'';
    [q] + Escape(s, q) + [q]
  }

  /** The parts joined by ", ". */
  function JoinComma(parts: seq<string>): string
    decreases |parts|
  {
    if parts == [] then []
    else if |parts| == 1 then parts[0]
    else parts[0] + ", " + JoinComma(parts[1..])
  }

  /** Python's `repr` of a decoded value. */
  function Repr(v: Json): string
    decreases v
  {
    match v
    case JNull => "None"
    case JBool(b) => if b then "True" else "False"
    case JInt(i) => IntToDecimal(i)
    case JStr(s) => QuoteRepr(s)
    case JArr(items) =>
      "[" + JoinComma(seq(|items|, k requires 0 <= k < |items| => Repr(items[k]))) + "]"
    case JObj(fields) =>
      "{" + JoinComma(seq(|fields|, k requires 0 <= k < |fields| =>
                            assert fields[k] in fields;
                            QuoteRepr(fields[k].0) + ": " + Repr(fields[k].1))) + "}"
  }

  /** Python's `str()` of a decoded value, as an f-string renders it. */
  function PyStr(v: Json): string {
    if v.JStr? then v.s else Repr(v)
  }
}

=== FILE: scenario.dfy ===
/** One delivery followed end to end: a push is stored, its redelivery is a
    duplicate, and listing everything afterwards serves that one record. */
module Scenario {
  import opened Wrappers
  import opened Text
  import opened Json
  import opened DateTime
  import opened EventModel
  import opened EventParser
  import opened EventService
  import opened Webhook
  import opened EventsRoute

  /** The smallest push payload: a ref, a head commit id and a pusher name. */
  function PushPayload(ref: string, id: string, author: string): Json {
    JObj([("ref", JStr(ref)), ("head_commit", JObj([("id", JStr(id))])), ("pusher", JObj([("name", JStr(author))]))])
  }

  predicate Named(id: string, author: string, branch: string) {
    && HasContent(id) && HasContent(author) && HasContent(branch)
    && forall i | 0 <= i <= |branch| - |RefsHeads| :: !OccursAt(branch, RefsHeads, i)
  }

  function PushRecord(id: string, author: string, branch: string, now: DateTime): Event {
    Event(id, author, "PUSH", branch, branch, now)
  }

  /** The three members read back as written. */
  lemma PushPayloadFields(ref: string, id: string, author: string)
    ensures var payload := PushPayload(ref, id, author);
      && Field(payload, "ref", JStr("")) == JStr(ref)
      && HeadCommitOf(payload) == JObj([("id", JStr(id))])
      && PusherOf(payload) == JObj([("name", JStr(author))])
  {
    var f := PushPayload(ref, id, author).fields;
    assert Lookup(f, "ref") == Some(JStr(ref));
    assert Lookup(f, "head_commit") == Lookup(f[1..], "head_commit");
    assert Lookup(f[1..], "head_commit") == Some(JObj([("id", JStr(id))]));
    assert Lookup(f, "pusher") == Lookup(f[1..], "pusher");
    assert Lookup(f[1..], "pusher") == Lookup(f[2..], "pusher");
    assert Lookup(f[2..], "pusher") == Some(JObj([("name", JStr(author))]));
  }

  /** The push normalises to its commit id, pusher and branch; without a
      commit time it is stamped with the clock. */
  lemma PushPayloadParses(id: string, author: string, branch: string, now: DateTime)
    requires Named(id, author, branch)
    ensures ParsePushEvent(PushPayload(RefsHeads + branch, id, author), now) == Some(PushRecord(id, author, branch, now))
  {
    var payload := PushPayload(RefsHeads + branch, id, author);
    PushPayloadFields(RefsHeads + branch, id, author);
    PushBranchOfHeadsRef(branch);
    assert Truthy(JStr(id)) by {
      var i :| 0 <= i < |id| && !IsSpace(id[i]);
    }
    assert PushCommitHash(payload) == JStr(id);
    assert ParseTimestamp(Field(HeadCommitOf(payload), "timestamp", JStr("")), now) == Success(now);
    PushEventSpec(payload, now);
  }

  /** Delivered to an empty store: 200 success with the commit id, and the
      store holds the one record. */
  lemma FirstDelivery(id: string, author: string, branch: string, now: DateTime)
    requires Named(id, author, branch)
    ensures var first := HandleWebhook("push", Payload(PushPayload(RefsHeads + branch, id, author)), [], now);
      && first.code == 200 && first.reply.status == "success" && first.reply.requestId == Some(id)
      && first.store == [PushRecord(id, author, branch, now)]
  {
    PushPayloadParses(id, author, branch, now);
    SupportedKind("push", PushPayload(RefsHeads + branch, id, author), [], now);
  }

  /** Delivered again, at any time: 200 duplicate with the same id, store unchanged. */
  lemma SecondDelivery(id: string, author: string, branch: string, now: DateTime, later: DateTime)
    requires Named(id, author, branch)
    ensures var store := [PushRecord(id, author, branch, now)];
      var second := HandleWebhook("push", Payload(PushPayload(RefsHeads + branch, id, author)), store, later);
      && second.code == 200 && second.reply.status == "duplicate" && second.reply.requestId == Some(id)
      && second.store == store
  {
    var store: Store := [PushRecord(id, author, branch, now)];
    assert id in Ids(store) by {
      assert Ids(store)[0] == id;
    }
    PushPayloadParses(id, author, branch, later);
    SupportedKind("push", PushPayload(RefsHeads + branch, id, author), store, later);
  }

  /** `all=true` then lists exactly the one record. */
  lemma ListAll(e: Event, poll: DateTime)
    ensures var listing := GetEvents(map["all" := "true"], [e], poll);
      && listing.code == 200
      && listing.reply.events == [ToApiResponse(e)]
      && |listing.reply.events| == 1
      && listing.reply.events[0].author == e.author && listing.reply.events[0].action == e.action
  {
    var store: Store := [e];
    var args := map["all" := "true"];
    assert AsciiLower("true") == "true";
    assert FetchAll(args);
    AllEventsComplete(store, DefaultLimit);
    assert AllRecords(store, DefaultLimit) == store;
    assert FetchRecords(args, store, poll) == Success(store);
  }

  /** End to end: stored, then a duplicate, then listed once as the pusher's PUSH. */
  lemma DeliveredTwiceListedOnce(id: string, author: string, branch: string, now: DateTime, later: DateTime, poll: DateTime)
    requires Named(id, author, branch)
    ensures var payload := PushPayload(RefsHeads + branch, id, author);
      var first := HandleWebhook("push", Payload(payload), [], now);
      var second := HandleWebhook("push", Payload(payload), first.store, later);
      var listing := GetEvents(map["all" := "true"], second.store, poll);
      && first.reply.status == "success" && first.reply.requestId == Some(id)
      && second.reply.status == "duplicate" && second.reply.requestId == Some(id)
      && listing.reply.Listing? && |listing.reply.events| == 1
      && listing.reply.events[0].author == author && listing.reply.events[0].action == "PUSH"
  {
    var payload := PushPayload(RefsHeads + branch, id, author);
    var record := PushRecord(id, author, branch, now);
    var first := HandleWebhook("push", Payload(payload), [], now);
    assert first.reply.status == "success" && first.reply.requestId == Some(id) && first.store == [record] by {
      FirstDelivery(id, author, branch, now);
    }
    var second := HandleWebhook("push", Payload(payload), first.store, later);
    assert second.reply.status == "duplicate" && second.reply.requestId == Some(id) && second.store == [record] by {
      SecondDelivery(id, author, branch, now, later);
    }
    var listing := GetEvents(map["all" := "true"], second.store, poll);
    assert listing.reply.Listing? && |listing.reply.events| == 1 && listing.reply.events[0].author == author
        && listing.reply.events[0].action == "PUSH" by {
      ListAll(record, poll);
    }
  }

  /** The push of `abc123` to `main` by `alice` is such a delivery. */
  lemma AlicePushIsNamed()
    ensures RefsHeads + "main" == "refs/heads/main"
    ensures Named("abc123", "alice", "main")
  {
    assert !IsSpace("abc123"[0]) && !IsSpace("alice"[0]) && !IsSpace("main"[0]);
  }
}

=== FILE: sorting.dfy ===
/** An insertion sort by a numeric key, largest key first: the
    `sort(field, -1)` of the database, independent of what the key is. */
module Sorting {

  /** No element has a larger key than one before it. */
  predicate Descending<T>(s: seq<T>, key: T -> int) {
    forall i, j | 0 <= i < j < |s| :: key(s[j]) <= key(s[i])
  }

  /** Places `x` after every element whose key is at least its own, before
      the first element with a smaller key. */
  function Insert<T(==)>(x: T, s: seq<T>, key: T -> int): (r: seq<T>)
    requires Descending(s, key)
    ensures multiset(r) == multiset(s) + multiset{x}
    ensures Descending(r, key)
  {
    if s == [] then [x]
    else if key(s[0]) < key(x) then [x] + s
    else
      var rest := Insert(x, s[1..], key);
      InsertKeepsOrder(s[0], rest, x, s[1..], key);
      assert [s[0]] + s[1..] == s;
      [s[0]] + rest
  }

  /** An element whose key bounds those of `x` and of all of `s` can head any
      arrangement of `x` and `s`. */
  lemma InsertKeepsOrder<T>(head: T, rest: seq<T>, x: T, s: seq<T>, key: T -> int)
    requires Descending(rest, key) && Descending([head] + s, key)
    requires multiset(rest) == multiset(s) + multiset{x}
    requires key(x) <= key(head)
    ensures Descending([head] + rest, key)
  {
    forall k | 0 <= k < |rest|
      ensures key(rest[k]) <= key(head)
    {
      assert rest[k] in multiset(rest);
      if rest[k] != x {
        assert rest[k] in multiset(s);
        var m :| 0 <= m < |s| && s[m] == rest[k];
        assert ([head] + s)[0] == head && ([head] + s)[m + 1] == rest[k];
      }
    }
    var t := [head] + rest;
    forall i, j | 0 <= i < j < |t|
      ensures key(t[j]) <= key(t[i])
    {
      if i == 0 {
        assert t[j] == rest[j - 1];
      } else {
        assert t[i] == rest[i - 1] && t[j] == rest[j - 1];
      }
    }
  }

  /** The sort: a permutation of the input, largest key first. */
  function SortDescending<T(==)>(s: seq<T>, key: T -> int): (r: seq<T>)
    ensures multiset(r) == multiset(s)
    ensures Descending(r, key)
  {
    if s == [] then []
    else
      assert s[..|s| - 1] + [s[|s| - 1]] == s;
      Insert(s[|s| - 1], SortDescending(s[..|s| - 1], key), key)
  }

  /** A permutation has the same length and the same elements. */
  lemma PermutationElements<T>(r: seq<T>, s: seq<T>)
    requires multiset(r) == multiset(s)
    ensures |r| == |s|
    ensures forall x :: x in r <==> x in s
  {
    assert |multiset(r)| == |multiset(s)|;
    forall x
      ensures x in r <==> x in s
    {
      assert x in r <==> x in multiset(r);
      assert x in s <==> x in multiset(s);
    }
  }
}

=== FILE: text.dfy ===
/** The Python string operations the modelled code relies on: `str.strip`,
    `str.endswith`, `str.replace(old, "")`, `str.lower` (as used in a comparison
    with an ASCII word), decimal rendering of integers and `int(str)`. */
module Text {
  import opened Wrappers

  /** Python's `str.isspace`: the characters `str.strip()` removes. */
  predicate IsSpace(c: char) {
    || ('\t' <= c <= '\r')
    || ('\U{1C}' <= c <= ' ')
    || c == '\U{85}' || c == '\U{A0}' || c == '\U{1680}'
    || ('\U{2000}' <= c <= '\U{200A}')
    || c == '\U{2028}' || c == '\U{2029}' || c == '\U{202F}' || c == '\U{205F}' || c == '\U{3000}'
  }

  /** Some character of `s` is not whitespace. */
  predicate HasContent(s: string) {
    exists i | 0 <= i < |s| :: !IsSpace(s[i])
  }

  /** `s.lstrip()`: the longest suffix of `s` that does not start with whitespace. */
  function StripLeft(s: string): (r: string)
    ensures |r| <= |s| && r == s[|s| - |r|..]
    ensures forall i | 0 <= i < |s| - |r| :: IsSpace(s[i])
    ensures r == [] || !IsSpace(r[0])
    decreases |s|
  {
    if |s| > 0 && IsSpace(s[0]) then StripLeft(s[1..]) else s
  }

  /** `s.rstrip()`: the longest prefix of `s` that does not end with whitespace. */
  function StripRight(s: string): (r: string)
    ensures |r| <= |s| && r == s[..|r|]
    ensures forall i | |r| <= i < |s| :: IsSpace(s[i])
    ensures r == [] || !IsSpace(r[|r| - 1])
    decreases |s|
  {
    if |s| > 0 && IsSpace(s[|s| - 1]) then StripRight(s[..|s| - 1]) else s
  }

  /** `s.strip()`. */
  function Strip(s: string): string {
    StripRight(StripLeft(s))
  }

  /** The guard `not s or not s.strip()` of the modelled validation is exactly
      "s has no non-whitespace character". */
  lemma EmptyAfterStripIffBlank(s: string)
    ensures (s == [] || Strip(s) == []) <==> !HasContent(s)
  {
    var l := StripLeft(s);
    if HasContent(s) {
      var i :| 0 <= i < |s| && !IsSpace(s[i]);
      var k := |s| - |l|;
      assert k <= i;
      assert l[i - k] == s[i];
      var r := StripRight(l);
      assert |r| > i - k;
    }
  }

  /** The text contains no whitespace at its ends, so `strip` leaves it alone. */
  lemma StripNoEdgeSpace(s: string)
    requires s != [] && !IsSpace(s[0]) && !IsSpace(s[|s| - 1])
    ensures Strip(s) == s
  {
    var l := StripLeft(s);
    assert |l| == |s|;
  }

  predicate EndsWith(s: string, c: char) {
    |s| > 0 && s[|s| - 1] == c
  }

  /** `p` occurs in `s` at position `i`. */
  predicate OccursAt(s: string, p: string, i: int) {
    0 <= i && i + |p| <= |s| && s[i..i + |p|] == p
  }

  /** `s.replace(p, "")`: removes the non-overlapping occurrences of `p`,
      scanning from the left, as Python does. */
  function RemoveAll(s: string, p: string): (r: string)
    requires |p| > 0
    ensures |r| <= |s|
    decreases |s|
  {
    if |s| < |p| then s
    else if s[..|p|] == p then RemoveAll(s[|p|..], p)
    else [s[0]] + RemoveAll(s[1..], p)
  }

  /** Removing a pattern that does not occur changes nothing. */
  lemma {:induction false} RemoveAllAbsent(s: string, p: string)
    requires |p| > 0
    requires forall i | 0 <= i <= |s| - |p| :: !OccursAt(s, p, i)
    ensures RemoveAll(s, p) == s
    decreases |s|
  {
    if |s| < |p| {
    } else {
      assert !OccursAt(s, p, 0);
      assert s[..|p|] != p;
      forall i | 0 <= i <= |s[1..]| - |p|
        ensures !OccursAt(s[1..], p, i)
      {
        assert !OccursAt(s, p, i + 1);
        assert s[1..][i..i + |p|] == s[i + 1..i + 1 + |p|];
      }
      RemoveAllAbsent(s[1..], p);
      assert [s[0]] + s[1..] == s;
    }
  }

  /** A leading occurrence is removed and the scan carries on after it. */
  lemma RemoveAllLeading(p: string, t: string)
    requires |p| > 0
    ensures RemoveAll(p + t, p) == RemoveAll(t, p)
  {
    assert (p + t)[..|p|] == p;
    assert (p + t)[|p|..] == t;
  }

  // ---------------------------------------------------------------- digits

  predicate IsDigit(c: char) {
    '0' <= c <= '9'
  }

  predicate AllDigits(s: string) {
    forall i | 0 <= i < |s| :: IsDigit(s[i])
  }

  function DigitValue(c: char): (d: nat)
    requires IsDigit(c)
    ensures d <= 9
  {
    c as int - '0' as int
  }

  function DigitChar(d: nat): (c: char)
    requires d <= 9
    ensures IsDigit(c) && DigitValue(c) == d
  {
    ('0' as int + d) as char
  }

  /** The number a string of decimal digits denotes. */
  function DigitsValue(s: string): nat
    requires AllDigits(s)
    decreases |s|
  {
    if s == [] then 0 else DigitsValue(s[..|s| - 1]) * 10 + DigitValue(s[|s| - 1])
  }

  /** Python's `str(n)` for a natural number: shortest decimal rendering. */
  function DecimalDigits(n: nat): (r: string)
    ensures r != [] && AllDigits(r)
    ensures |r| > 1 ==> r[0] != '0'
    decreases n
  {
    if n < 10 then [DigitChar(n)] else DecimalDigits(n / 10) + [DigitChar(n % 10)]
  }

  lemma {:induction false} DecimalDigitsValue(n: nat)
    ensures DigitsValue(DecimalDigits(n)) == n
    decreases n
  {
    if n >= 10 {
      var r := DecimalDigits(n);
      assert r[..|r| - 1] == DecimalDigits(n / 10);
      DecimalDigitsValue(n / 10);
    }
  }

  /** Python's `str(i)` for an integer. */
  function IntToDecimal(i: int): string {
    if i < 0 then "-" + DecimalDigits(-i) else DecimalDigits(i)
  }

  lemma DigitsValueTwo(t: string)
    requires |t| == 2 && AllDigits(t)
    ensures DigitsValue(t) == DigitValue(t[0]) * 10 + DigitValue(t[1])
  {
    assert t[..1] == [t[0]];
    assert t[..1][..0] == [];
    assert DigitsValue(t[..1]) == DigitValue(t[0]);
    assert DigitsValue(t) == DigitsValue(t[..1]) * 10 + DigitValue(t[1]);
  }

  lemma DigitsValueAppendTwo(a: string, b: string)
    requires AllDigits(a) && |b| == 2 && AllDigits(b)
    ensures AllDigits(a + b)
    ensures DigitsValue(a + b) == DigitsValue(a) * 100 + DigitsValue(b)
  {
    var ab := a + b;
    assert ab[..|ab| - 1] == a + [b[0]];
    assert (a + [b[0]])[..|a|] == a;
    assert DigitsValue(a + [b[0]]) == DigitsValue(a) * 10 + DigitValue(b[0]);
    assert DigitsValue(ab) == DigitsValue(a + [b[0]]) * 10 + DigitValue(b[1]);
    DigitsValueTwo(b);
  }

  /** Two-digit zero-padded rendering (`%02d`). */
  function Pad2(n: nat): (r: string)
    requires n < 100
    ensures |r| == 2 && AllDigits(r) && DigitsValue(r) == n
  {
    var r := [DigitChar(n / 10), DigitChar(n % 10)];
    DigitsValueTwo(r);
    r
  }

  /** Four-digit zero-padded rendering (`%04d`). */
  function Pad4(n: nat): (r: string)
    requires n < 10000
    ensures |r| == 4 && AllDigits(r) && DigitsValue(r) == n
  {
    var r := Pad2(n / 100) + Pad2(n % 100);
    DigitsValueAppendTwo(Pad2(n / 100), Pad2(n % 100));
    r
  }

  /** A two-digit string is the padded rendering of its own value. */
  lemma Pad2OfValue(t: string)
    requires |t| == 2 && AllDigits(t)
    ensures DigitsValue(t) < 100 && Pad2(DigitsValue(t)) == t
  {
    DigitsValueTwo(t);
  }

  /** A four-digit string is the padded rendering of its own value. */
  lemma Pad4OfValue(t: string)
    requires |t| == 4 && AllDigits(t)
    ensures DigitsValue(t) < 10000 && Pad4(DigitsValue(t)) == t
  {
    var hi, lo := t[..2], t[2..];
    assert t == hi + lo;
    DigitsValueAppendTwo(hi, lo);
    Pad2OfValue(hi);
    Pad2OfValue(lo);
    var n := DigitsValue(t);
    assert n / 100 == DigitsValue(hi);
    assert n % 100 == DigitsValue(lo);
  }

  // ---------------------------------------------------------------- case

  function AsciiLowerChar(c: char): char {
    if 'A' <= c <= 'Z' then (c as int + 32) as char else c
  }

  /** `s.lower()` on ASCII letters. No other character lower-cases to an ASCII
      letter other than `k` and `i`, so a comparison of the result with an ASCII
      word made of other letters is exact. */
  function AsciiLower(s: string): (r: string)
    ensures |r| == |s|
    ensures forall i | 0 <= i < |s| :: r[i] == AsciiLowerChar(s[i])
  {
    seq(|s|, i requires 0 <= i < |s| => AsciiLowerChar(s[i]))
  }

  // ---------------------------------------------------------------- int()

  /** The body of a base-10 Python integer literal: digits, with single
      underscores allowed between digits. */
  predicate DigitGroups(b: string) {
    && |b| > 0 && IsDigit(b[0]) && IsDigit(b[|b| - 1])
    && (forall i | 0 <= i < |b| :: IsDigit(b[i]) || b[i] == '_')
    && (forall i | 0 <= i < |b| - 1 :: b[i] == '_' ==> b[i + 1] != '_')
  }

  function RemoveUnderscores(b: string): (r: string)
    requires forall i | 0 <= i < |b| :: IsDigit(b[i]) || b[i] == '_'
    ensures AllDigits(r) && |r| <= |b|
    decreases |b|
  {
    if b == [] then []
    else if b[|b| - 1] == '_' then RemoveUnderscores(b[..|b| - 1])
    else RemoveUnderscores(b[..|b| - 1]) + [b[|b| - 1]]
  }

  /** Python's `int(s)` for a string: None where Python raises ValueError.
      Whitespace around the literal is ignored; a sign may lead. */
  function ParsePyInt(s: string): Option<int> {
    ParseSignedLiteral(Strip(s))
  }

  /** A stripped integer literal: an optional sign, then digit groups. */
  function ParseSignedLiteral(t: string): Option<int> {
    if |t| > 0 && (t[0] == '+' || t[0] == '-') then
      var magnitude :- ParseDigitGroups(t[1..]);
      Some(if t[0] == '-' then -magnitude else magnitude)
    else ParseDigitGroups(t)
  }

  /** The most digits `int()` converts: the default of
      `sys.get_int_max_str_digits()`. A longer literal raises ValueError. */
  const MaxStrDigits: nat := 4300

  /** The value of the digit groups `b`; None where they are malformed or
      hold more than `MaxStrDigits` digits. */
  function ParseDigitGroups(b: string): Option<int> {
    if !DigitGroups(b) then None
    else if |RemoveUnderscores(b)| > MaxStrDigits then None
    else Some(DigitsValue(RemoveUnderscores(b)))
  }

  lemma {:induction false} RemoveUnderscoresOfDigits(b: string)
    requires AllDigits(b)
    ensures RemoveUnderscores(b) == b
    decreases |b|
  {
    if b != [] {
      RemoveUnderscoresOfDigits(b[..|b| - 1]);
      assert b[..|b| - 1] + [b[|b| - 1]] == b;
    }
  }

  lemma ParseDigitGroupsOfDigits(n: nat)
    ensures ParseDigitGroups(DecimalDigits(n)) ==
      if |DecimalDigits(n)| <= MaxStrDigits then Some(n) else None
  {
    var d := DecimalDigits(n);
    DecimalDigitsValue(n);
    RemoveUnderscoresOfDigits(d);
    assert DigitGroups(d);
  }

  lemma PyIntOfDigits(m: nat)
    ensures ParsePyInt(DecimalDigits(m)) == ParseDigitGroups(DecimalDigits(m))
  {
    var d := DecimalDigits(m);
    assert Strip(d) == d by {
      assert IsDigit(d[0]) && IsDigit(d[|d| - 1]);
      StripNoEdgeSpace(d);
    }
    assert ParseSignedLiteral(d) == ParseDigitGroups(d) by {
      assert IsDigit(d[0]);
    }
  }

  /** `int("-" + t)` for the body `t` of a literal: the negated value, or
      the same ValueError. */
  lemma PyIntOfNegativeLiteral(t: string)
    requires t != [] && IsDigit(t[|t| - 1])
    ensures ParsePyInt("-" + t) ==
      if ParseDigitGroups(t).Some? then Some(0 - ParseDigitGroups(t).value) else None
  {
    var s := "-" + t;
    assert Strip(s) == s by {
      assert s[|s| - 1] == t[|t| - 1];
      StripNoEdgeSpace(s);
    }
    assert ParseSignedLiteral(s) ==
      (if ParseDigitGroups(t).Some? then Some(0 - ParseDigitGroups(t).value) else None) by {
      assert s[0] == '-' && s[1..] == t;
    }
  }

  /** The number of decimal digits of `i`, without its sign. */
  function DigitCount(i: int): nat {
    |DecimalDigits(if i < 0 then -i else i)|
  }

  /** `int(str(i)) == i` for every integer of at most `MaxStrDigits` digits;
      the decimal text of a longer one makes `int()` raise. */
  lemma PyIntOfDecimal(i: int)
    ensures ParsePyInt(IntToDecimal(i)) == if DigitCount(i) <= MaxStrDigits then Some(i) else None
  {
    if i < 0 {
      PyIntOfNegativeDecimal(i);
    } else {
      PyIntOfDigits(i);
      ParseDigitGroupsOfDigits(i);
    }
  }

  lemma PyIntOfNegativeDecimal(i: int)
    requires i < 0
    ensures ParsePyInt(IntToDecimal(i)) == if DigitCount(i) <= MaxStrDigits then Some(i) else None
  {
    var m: nat := -i;
    var d := DecimalDigits(m);
    var parsed := ParsePyInt("-" + d);
    assert parsed == if |d| <= MaxStrDigits then Some(0 - m) else None by {
      ParseDigitGroupsOfDigits(m);
      assert IsDigit(d[|d| - 1]);
      PyIntOfNegativeLiteral(d);
    }
    assert IntToDecimal(i) == "-" + d;
    assert DigitCount(i) == |d|;
  }
}

=== FILE: webhook.dfy ===
/** `POST /webhook`: the decision tree that turns one delivery (the event-kind
    header and the request body) into a status reply, an HTTP code and the
    store after the delivery. */
module Webhook {
  import opened Wrappers
  import opened Json
  import opened DateTime
  import opened EventModel
  import opened EventParser
  import opened EventService

  /** The request body as `request.get_json()` sees it: a decoded document,
      or a body it refuses (not JSON, or not declared as JSON), in which case
      it raises. */
  datatype Body = Payload(json: Json) | Unreadable

  /** The JSON reply: `status`, `message` and, for a stored or duplicate
      record, its `request_id`. */
  datatype Reply = Reply(status: string, message: string, requestId: Option<string>)

  datatype Response = Response(code: int, reply: Reply, store: Store)

  const PingMessage: string := "Pong! Webhook configured successfully."
  const NoPayloadMessage: string := "No JSON payload received"
  const ParseFailedMessage: string := "Failed to parse event payload"
  const DuplicateMessage: string := "Event already exists"
  const InternalErrorMessage: string := "Internal server error"

  function UnsupportedMessage(eventType: string): string {
    "Event type '" + eventType + "' is not supported"
  }

  function SavedMessage(action: string): string {
    action + " event saved successfully"
  }

  /** The normaliser the header selects, for the two supported kinds. */
  function ParseByKind(eventType: string, payload: Json, now: DateTime): Option<Event>
    requires eventType in {"push", "pull_request"}
  {
    if eventType == "push" then ParsePushEvent(payload, now) else ParsePullRequestEvent(payload, now)
  }

  /** `handle_webhook`. The checks run in order: the body, the ping, the
      event kind, the parse, the save. A body that `get_json` refuses raises,
      which the handler answers with 500 and a fixed message. */
  function HandleWebhook(eventType: string, body: Body, store: Store, now: DateTime): (r: Response)
    ensures r.code in {200, 400, 500}
    ensures r.code == 200 <==> r.reply.status in {"success", "duplicate", "ignored"}
    ensures r.code != 200 ==> r.reply.status == "error"
    ensures r.reply.requestId.Some? <==> r.reply.status == "duplicate" || (r.reply.status == "success" && eventType != "ping")
    ensures r.store == store || (r.reply.status == "success" && exists e :: r.store == store + [e] && Validate(e) == Success(true))
  {
    match body
    case Unreadable => Response(500, Reply("error", InternalErrorMessage, None), store)
    case Payload(payload) =>
      if !Truthy(payload) then Response(400, Reply("error", NoPayloadMessage, None), store)
      else if eventType == "ping" then Response(200, Reply("success", PingMessage, None), store)
      else if eventType !in {"push", "pull_request"} then
        Response(200, Reply("ignored", UnsupportedMessage(eventType), None), store)
      else
        match ParseByKind(eventType, payload, now)
        case None => Response(400, Reply("error", ParseFailedMessage, None), store)
        case Some(e) =>
          var result := SaveEvent(store, e);
          if result.saved then
            Response(200, Reply("success", SavedMessage(e.action), Some(e.requestId)), result.store)
          else
            Response(200, Reply("duplicate", DuplicateMessage, Some(e.requestId)), store)
  }

  /** An empty or absent payload is refused before the event kind is looked
      at: a ping with an empty body is a 400 too. */
  lemma EmptyPayloadRefused(eventType: string, payload: Json, store: Store, now: DateTime)
    requires !Truthy(payload)
    ensures HandleWebhook(eventType, Payload(payload), store, now)
         == Response(400, Reply("error", NoPayloadMessage, None), store)
  {
  }

  /** A ping with a payload is answered without parsing or saving anything. */
  lemma PingAnswered(payload: Json, store: Store, now: DateTime)
    requires Truthy(payload)
    ensures HandleWebhook("ping", Payload(payload), store, now)
         == Response(200, Reply("success", PingMessage, None), store)
  {
  }

  /** Kinds other than push, pull_request and ping are acknowledged and ignored. */
  lemma UnsupportedIgnored(eventType: string, payload: Json, store: Store, now: DateTime)
    requires Truthy(payload) && eventType !in {"push", "pull_request", "ping"}
    ensures var r := HandleWebhook(eventType, Payload(payload), store, now);
      && r.code == 200 && r.reply.status == "ignored" && r.store == store
      && r.reply.message == UnsupportedMessage(eventType)
  {
  }

  /** For the two supported kinds: no record gives 400; a record is saved
      (200, success) exactly when `save_event` accepts it, and is otherwise
      reported as a duplicate (200) with the store unchanged. */
  lemma SupportedKind(eventType: string, payload: Json, store: Store, now: DateTime)
    requires Truthy(payload) && eventType in {"push", "pull_request"}
    ensures var r := HandleWebhook(eventType, Payload(payload), store, now);
      match ParseByKind(eventType, payload, now)
      case None => r == Response(400, Reply("error", ParseFailedMessage, None), store)
      case Some(e) =>
        && r.code == 200
        && r.reply.requestId == Some(e.requestId)
        && (e.requestId !in Ids(store) ==>
              r.reply == Reply("success", SavedMessage(e.action), Some(e.requestId)) && r.store == store + [e])
        && (e.requestId in Ids(store) ==>
              r.reply == Reply("duplicate", DuplicateMessage, Some(e.requestId)) && r.store == store)
  {
    var r := HandleWebhook(eventType, Payload(payload), store, now);
    var parsed := ParseByKind(eventType, payload, now);
    if parsed.Some? {
      var e := parsed.value;
      assert Validate(e) == Success(true);
      var saved := SaveEvent(store, e);
      assert saved.saved <==> e.requestId !in Ids(store);
      assert r == if saved.saved then Response(200, Reply("success", SavedMessage(e.action), Some(e.requestId)), saved.store)
                  else Response(200, Reply("duplicate", DuplicateMessage, Some(e.requestId)), store);
    }
  }

  /** A body `get_json` refuses is a 500 with the fixed message. */
  lemma UnreadableBody(eventType: string, store: Store, now: DateTime)
    ensures HandleWebhook(eventType, Unreadable, store, now)
         == Response(500, Reply("error", InternalErrorMessage, None), store)
  {
  }

  /** Redelivery: when a delivery was stored, delivering it again, at any
      later time, is a duplicate with the same request id and stores nothing. */
  lemma RedeliveryIsDuplicate(eventType: string, payload: Json, store: Store, now: DateTime, later: DateTime)
    requires HandleWebhook(eventType, Payload(payload), store, now).reply.status == "success"
    requires eventType != "ping"
    ensures var first := HandleWebhook(eventType, Payload(payload), store, now);
      var second := HandleWebhook(eventType, Payload(payload), first.store, later);
      && second.code == 200
      && second.reply == Reply("duplicate", DuplicateMessage, first.reply.requestId)
      && second.store == first.store
  {
    var first := HandleWebhook(eventType, Payload(payload), store, now);
    assert Truthy(payload) && eventType in {"push", "pull_request"};
    SupportedKind(eventType, payload, store, now);
    var e := ParseByKind(eventType, payload, now).value;
    assert e.requestId !in Ids(store) && first.store == store + [e];
    SameRequestIdAtAnyTime(eventType, payload, now, later);
    assert Ids(first.store)[|store|] == e.requestId;
    SupportedKind(eventType, payload, first.store, later);
  }

  /** The request id a payload gives does not depend on the clock: only the
      timestamp fallback reads it. */
  lemma SameRequestIdAtAnyTime(eventType: string, payload: Json, now: DateTime, later: DateTime)
    requires eventType in {"push", "pull_request"}
    requires ParseByKind(eventType, payload, now).Some?
    ensures ParseByKind(eventType, payload, later).Some?
    ensures ParseByKind(eventType, payload, later).value.requestId
         == ParseByKind(eventType, payload, now).value.requestId
  {
    if eventType == "push" {
      PushEventSpec(payload, now);
      PushEventSpec(payload, later);
      TimestampFallbackIndependent(Field(HeadCommitOf(payload), "timestamp", JStr("")), now, later);
    } else {
      PullRequestEventSpec(payload, now);
      PullRequestEventSpec(payload, later);
      TimestampFallbackIndependent(TimestampSource(PullRequestOf(payload), ActionOf(payload).value), now, later);
    }
  }
}

=== FILE: wrappers.dfy ===
/** Option and Result types used for the "None" returns and the exceptions of the
    modelled code. Both can be used with `:-`. */
module Wrappers {

  datatype Option<+T> = None | Some(value: T) {

    predicate IsFailure() {
      None?
    }

    function PropagateFailure<U>(): Option<U>
      requires None?
    {
      None
    }

    function Extract(): T
      requires Some?
    {
      value
    }

    function GetOr(default: T): T {
      match this
      case Some(v) => v
      case None => default
    }

    function ToResult<E>(error: E): Result<T, E> {
      match this
      case Some(v) => Success(v)
      case None => Failure(error)
    }
  }

  datatype Result<+T, +E> = Success(value: T) | Failure(error: E) {

    predicate IsFailure() {
      Failure?
    }

    function PropagateFailure<U>(): Result<U, E>
      requires Failure?
    {
      Failure(error)
    }

    function Extract(): T
      requires Success?
    {
      value
    }

    function GetOr(default: T): T {
      match this
      case Success(v) => v
      case Failure(_) => default
    }

    /** Drops the error: a caught exception becomes None. */
    function ToOption(): Option<T> {
      match this
      case Success(v) => Some(v)
      case Failure(_) => None
    }
  }
}
